=== FILE: README.md ===
# fith: the stack interpreter and its live line editor, in Dafny

fith is a tiny stack language with an interactive editor. The project
models two parts of it.

The interpreter (`src/interpreter.rs`) holds a stack of `i32` values.
`execute_line` splits a line on whitespace and runs every token, left to
right. A token is one of three things:

- an `i32` literal, which is pushed;
- one of the words `.` `drop` `dup` `swap` `rot` `+` `-` `*` `/` `mod`;
- anything else, which is reported as unrecognized.

The line's output is every token's output run together. Error messages are
ordinary output here, and an error never stops the line.

The editor (`src/interactive.rs`, `run_line` and `run`) keeps a committed
interpreter, an edit buffer and a cursor. Every edit runs the whole buffer
on a fresh `duplicate` of the committed interpreter to preview the result.
A newline makes that duplicate the new committed interpreter. Ctrl-C and
Ctrl-D end the session. Here the editor is the pure function
`Interactive.Step`: it takes a session and a key and returns the next
session and the preview it would draw.

Modules, in dependency order:

- `Optional` (optional.dfy): Rust's `Option`.
- `Numerals` (numerals.dfy): `str::parse::<i32>`, with both a declarative
  definition and the digit-by-digit algorithm; also `i32::to_string`.
- `Lexer` (lexer.dfy): `split_whitespace` over the Unicode White_Space
  characters.
- `Arith` (arith.dfy): the five operations on `i32` as a debug build runs
  them.
  - `+`, `-` and `*` panic on overflow.
  - `/` and `%` truncate toward zero.
  - `/` and `%` panic on a zero divisor and on `i32::MIN` divided by -1.
- `Interpreter` (interpreter.dfy): `new`, `duplicate`, `execute_token`,
  `execute_binary_op` and `execute_line`.
- `Interactive` (interactive.dfy): the key transitions of `run_line`, key
  sequences, and `run`.
- `Scenarios` (scenarios.dfy): whole lines and key sequences that pin down
  the easily misread behaviours.

Behaviours of the code that are easy to misread:

- `execute_line` returns one `String`. Error messages are part of it,
  every one of them, concatenated in order with the other outputs.
- `rot` pops `a`, `b`, `c` and pushes `b`, `a`, `c`. So `1 2 3 rot` leaves
  `2 3 1`.
- A binary word pops `a` (the top) and then `b`, and pushes `op(a, b)`.
  So `5 3 -` leaves -2, `5 0 /` leaves 0, and `0 5 /` divides by zero.
- `swap`, `rot` and the binary words pop eagerly. On the error path they
  leave the stack empty.
- `/` or `mod` by zero, and arithmetic overflow, panic in Rust. They are a
  `Fault` (`TokenPanic`, `LinePanic`, `Crash`), never an error message.
- A preview that panics ends the program, even if the finished line would
  not panic. For example, typing `0 1 /x` dies at the preview of `0 1 /`.
- `interactive.rs` treats the result of `execute_line` as a
  success/failure result and calls a `stack_display` method, and neither
  exists in `interpreter.rs`. The editor is therefore modelled over the
  evaluated duplicate's stack value and the line's output string. No
  rendering format is invented.

## Model

| member | source | states |
|---|---|---|
| Numerals.ParseI32 | src/interpreter.rs:21-25 | a token is a literal only if it is an optional sign followed by one or more digits, and its value fits in `i32`; the value pushed is the number the numeral denotes, always in range |
| Numerals.WordIsNotLiteral | src/interpreter.rs:21-25 | a token that starts with neither a digit nor a sign is never a literal |
| Numerals.FromStrRadix | src/interpreter.rs:21 | the digit-by-digit parser (reject an empty token and a lone sign, accumulate with the sign, fail at a stray character or the first step out of range) accepts exactly the tokens `ParseI32` accepts, with the same value |
| Numerals.NatToDigits | src/interpreter.rs:29 | the decimal text of a value is non-empty, all digits, has no leading zero, and reads back as the value |
| Numerals.IntToString | src/interpreter.rs:29 | the printed text of a value is a numeral denoting exactly that value, in canonical form: no `+`, no leading zero, and a `-` only before a value below zero |
| Numerals.CanonicalDigits | src/interpreter.rs:29 | a run of digits without a leading zero is the one decimal text of its value |
| Numerals.PrintParseRoundTrip | src/interpreter.rs:28-29 | for every `i32` value, the text `.` prints for it parses back as a literal with that same value; and any canonical literal with that value is exactly that text |
| Numerals.LoneSignIsNotLiteral | src/interpreter.rs:21-26 | `+` and `-` alone do not parse, so they reach the word table |
| Lexer.SplitWhitespace | src/interpreter.rs:17 | every piece of a split line is non-empty and free of whitespace |
| Lexer.SplitUnwords | src/interpreter.rs:17 | tokens joined by single spaces split back into exactly those tokens |
| Lexer.SplitAtWhitespace | src/interpreter.rs:17 | any whitespace character (a space, a tab, one of a run, leading or trailing) separates: the tokens of `a`, one whitespace character and `b` are the tokens of `a` followed by those of `b` |
| Lexer.SplitBlank | src/interpreter.rs:17 | a line has no tokens if and only if it is all whitespace |
| Lexer.SplitKeepsContent | src/interpreter.rs:17 | the tokens, run together, are exactly the non-whitespace characters of the line, in order |
| Arith.Check | src/interpreter.rs:60-62 | `+`, `-`, `*` give the exact result when it fits in `i32` and panic with overflow otherwise |
| Arith.TruncDiv | src/interpreter.rs:63 | Rust's `/` rounds toward zero: the magnitude of the quotient is the largest whole number of divisor magnitudes that fit in the dividend's magnitude, and the quotient is non-negative when the signs agree and non-positive when they differ |
| Arith.TruncRem | src/interpreter.rs:64 | Rust's `%`: the remainder is smaller than the divisor in magnitude, takes the dividend's sign, and with the truncating quotient rebuilds the dividend (`b * (a / b) + a % b == a`) |
| Arith.TruncDivRem | src/interpreter.rs:63-64 | truncating quotient times divisor plus remainder is the dividend; the remainder is smaller than the divisor in magnitude and has the dividend's sign; the quotient is no larger than the dividend in magnitude |
| Arith.DivRemInRange | src/interpreter.rs:63-64 | on `i32` operands, with a non-zero divisor and not `i32::MIN / -1`, quotient and remainder fit in `i32` |
| Arith.Apply | src/interpreter.rs:60-64 | `+`, `-` and `*` give the overflow-checked sum, difference and product; `/` and `mod` give the truncating quotient and remainder when they do not panic; results of `i32` operands stay in `i32`; division by zero happens exactly for `/` and `mod` with a zero divisor; on `i32` operands `/` and `mod` panic exactly for a zero divisor or `i32::MIN / -1` |
| Interpreter.New | src/interpreter.rs:8-10 | a new interpreter has an empty stack |
| Interpreter.Duplicate | src/interpreter.rs:12-14 | the copy has a stack equal to the original's |
| Interpreter.Pop | src/interpreter.rs:86 | popping an empty stack yields nothing and leaves it empty; otherwise it yields the top, and putting the top back restores the stack |
| Interpreter.Print | src/interpreter.rs:28-32 | on a non-empty stack `.` removes the top and outputs its decimal text; on an empty stack it outputs the print error and the stack stays empty; `i32` stacks stay `i32` |
| Interpreter.Drop | src/interpreter.rs:33-37 | on a non-empty stack `drop` removes the top silently; on an empty stack it outputs the drop error |
| Interpreter.Dup | src/interpreter.rs:38-44 | `s ++ [a]` becomes `s ++ [a, a]` with no output; an empty stack gives the dup error and stays empty |
| Interpreter.Swap | src/interpreter.rs:45-51 | `s ++ [b, a]` becomes `s ++ [a, b]` with no output; with fewer than two elements the stack ends empty (a lone element is lost) and the swap error is output |
| Interpreter.Rot | src/interpreter.rs:52-59 | `s ++ [c, b, a]` becomes `s ++ [b, a, c]` with no output; with fewer than three elements the stack ends empty and the rot error is output |
| Interpreter.BinaryOp | src/interpreter.rs:73-92 | with fewer than two elements the stack ends empty and the named error is output; otherwise it panics exactly when `op(top, second)` panics, and else the stack shrinks by one, keeps everything below the two operands, and holds `op(top, second)` on top, with no output |
| Interpreter.ArithWord | src/interpreter.rs:60-64 | exactly `+`, `-`, `*`, `/` and `mod` are arithmetic words, and none of them is a literal or a stack word |
| Interpreter.ExecToken | src/interpreter.rs:20-71 | a literal is pushed silently; a token that is neither literal nor word leaves the stack and reports itself as unrecognized; only arithmetic words can panic; `i32` stacks stay `i32`; a token grows the stack by at most one |
| Interpreter.ExecTokenWords | src/interpreter.rs:27-64 | each of the ten words runs its own operation: `.` prints, `drop` drops, `dup` duplicates, `swap` swaps, `rot` rotates, and `+` `-` `*` `/` `mod` run the binary operation add, subtract, multiply, divide and mod |
| Interpreter.RunTokens | src/interpreter.rs:17 | running tokens in order keeps an `i32` stack `i32`, and grows the stack by at most one element per token |
| Interpreter.PanicNeedsArith | src/interpreter.rs:17 | a line that panics contains an arithmetic word |
| Interpreter.ExecLine | src/interpreter.rs:16-18 | running a line on an `i32` stack leaves an `i32` stack |
| Interpreter.RunTokensAppend | src/interpreter.rs:17 | running tokens in two parts equals running them at once: the second part runs on the stack the first left, and the outputs concatenate, whatever errors the first part reported |
| Interpreter.ErrorDoesNotStop | src/interpreter.rs:17 | after a token that outputs an error, the rest of the line still runs on the stack that token left, and its output follows the message |
| Interpreter.LiteralValuesAt | src/interpreter.rs:21-25 | the values of a run of literals are, one per token and in order, the values the tokens parse to |
| Interpreter.LiteralsPush | src/interpreter.rs:21-25 | a run of literals pushes their values in order and outputs nothing |
| Interpreter.BlankLine | src/interpreter.rs:16-18 | a blank line outputs nothing and leaves the stack unchanged |
| Interpreter.ExecLineConcat | src/interpreter.rs:16-18 | the tokens of two lines joined by a space run as the first line followed by the second line's tokens on the stack it left |
| Interpreter.OutOfRangeNumeral | src/interpreter.rs:65-67 | a numeral outside `i32` is reported as an unrecognized token and the stack is unchanged |
| Interactive.Start | src/interactive.rs:37-38 | each `run_line` starts with an empty buffer and the cursor at 0 |
| Interactive.InsertAt | src/interactive.rs:81 | the new character lands at the index; earlier characters stay put and later ones move one place right |
| Interactive.RemoveAt | src/interactive.rs:114 | the character at the index goes; earlier characters stay put and later ones move one place left |
| Interactive.Insert | src/interactive.rs:79-85 | a printable key inserts at the cursor (both the insert and the push branch) and advances the cursor by one; the committed interpreter is untouched and the cursor stays within the buffer |
| Interactive.MoveLeft | src/interactive.rs:93-99 | Left moves the cursor back by one unless it is at 0, and never changes the buffer |
| Interactive.MoveRight | src/interactive.rs:100-108 | Right moves the cursor forward by one, clamped to the buffer length, and never changes the buffer |
| Interactive.DeleteBack | src/interactive.rs:111-114 | Backspace removes the character left of the cursor and moves the cursor onto its place |
| Interactive.Evaluate | src/interactive.rs:86-88 | the preview of a buffer, run on a duplicate of the committed interpreter, is exactly what running the line on the committed interpreter gives, and keeps an `i32` stack `i32` |
| Interactive.Refresh | src/interactive.rs:86-91 | the preview shown is exactly the evaluation of the buffer on a duplicate of the committed interpreter; the session is unchanged; the program ends exactly when that evaluation panics, with that evaluation's fault |
| Interactive.Commit | src/interactive.rs:54-78 | Enter makes the evaluated duplicate's stack the new committed interpreter, starts a fresh line, and shows that evaluation; it crashes exactly when the evaluation panics, with that evaluation's fault |
| Interactive.Step | src/interactive.rs:39-124 | each key keeps the cursor within the buffer; only Enter replaces the committed interpreter; a printable key and Backspace away from 0 edit the buffer and then always evaluate it, showing that evaluation or crashing exactly when it panics; every preview is the evaluation of the new buffer on a duplicate of the committed interpreter; Enter commits; the session quits exactly on Ctrl-C or Ctrl-D; only a printable key or Backspace can crash; arrows move the cursor with no preview; Backspace at 0 and every ignored key leave the session unchanged with no preview |
| Interactive.InsertThenBackspace | src/interactive.rs:79-122 | typing a character and then Backspace restores the session and shows the preview of the original buffer |
| Interactive.LeftRightInverse | src/interactive.rs:93-108 | Left then Right (away from the start) and Right then Left (away from the end) return to the same session with no preview |
| Interactive.RunKeys | src/interactive.rs:39-128 | feeding keys keeps the cursor within the buffer in the session it ends in |
| Interactive.RunKeysAppend | src/interactive.rs:39-128 | feeding two key sequences one after the other is feeding their concatenation |
| Interactive.NoCommitKeepsCommitted | src/interactive.rs:33-128 | without a newline key the committed interpreter is never replaced, whatever was edited and previewed |
| Interactive.PreviewIgnoresHistory | src/interactive.rs:86-117 | after any newline-free editing, the preview a key shows is the evaluation of the current buffer on a duplicate of the interpreter the line started from |
| Interactive.TypedAppend | src/interactive.rs:39 | the keys of a text typed in two parts are the keys of the parts, in order |
| Interactive.TypeFirst | src/interactive.rs:79-91 | one character typed at the end of the buffer: when the preview of the longer buffer completes, typing goes on from the longer buffer; when it panics, the program ends with that fault |
| Interactive.TypeTextLive | src/interactive.rs:79-91 | typing a text at the end of the buffer survives if and only if the preview of every buffer on the way, one character longer each time, completes |
| Interactive.TypeAtEnd | src/interactive.rs:79-92 | typing a newline-free text at the end of the buffer appends it and leaves the cursor at the end, unless a preview panics |
| Interactive.TypeAndCommit | src/interactive.rs:54-77 | typing a line into a fresh `run_line` without a preview panicking means the line itself does not panic, and Enter then commits exactly the stack `execute_line` of the line produces; a line whose execution panics always ends the program, while typing or at the latest on Enter |
| Interactive.Run | src/interactive.rs:9-31 | a run whose keys contain no newline ends with the interpreter it started with |
| Interactive.QuitEndsFeed | src/interactive.rs:41-48 | Ctrl-C or Ctrl-D ends the key loop at once with the committed interpreter; no later key is read |
| Interactive.QuitEndsRun | src/interactive.rs:22-30 | `run` stops at the first quit key with the interpreter committed before it, whatever keys follow; with no newline before the quit key that is the starting interpreter |
| Interactive.RunAborts | src/interactive.rs:22-30 | `run` ends in a panic exactly when an evaluation on the way panics, with that fault, and no key after the panic changes that |
| Scenarios.RotOrder | src/interpreter.rs:52-59 | for any three literals `x y z`, the line `x y z rot` leaves `y z x` on the stack and outputs nothing |
| Scenarios.ArithOnTop | src/interpreter.rs:86-87 | an arithmetic word on `s ++ [b, a]` replaces the two with `op(a, b)`, or panics |
| Scenarios.ArithLine | src/interpreter.rs:60-64 | for literals `x y`, the line `x y op` pushes `op(y, x)` silently, or panics with that operation's fault |
| Scenarios.SubtractOrder | src/interpreter.rs:61 | `x y -` runs as the overflow-checked `y - x`: it pushes `y - x` when that fits in `i32` and panics with overflow otherwise |
| Scenarios.DivideOrder | src/interpreter.rs:63 | `x y /` panics on `x = 0` and on `i32::MIN / -1`, and otherwise pushes `y / x` rounded toward zero |
| Scenarios.PrintShows | src/interpreter.rs:28-29 | `x .` outputs the decimal text of `x` and leaves the stack as it was |
| Scenarios.SwapLoses | src/interpreter.rs:45-51 | `x swap` on a new interpreter outputs the swap error and leaves an empty stack |
| Scenarios.NoShortCircuit | src/interpreter.rs:16-18 | `x w .` with an unrecognized `w` outputs the error for `w` followed by the text of `x` |
| Scenarios.TypingPrefixCrashes | src/interactive.rs:79-91 | typing `0 1 /x` key by key into a fresh `run_line` ends the program with division by zero, although the finished line `0 1 /x` does not panic |
| Scenarios.TypePlusPreview | src/interactive.rs:79-92 | with `1 2` committed, typing `+` previews the stack `3` |
| Scenarios.BackspacePreview | src/interactive.rs:111-122 | backspacing that `+` previews the committed `1 2` again |
| Scenarios.SpacePreview | src/interactive.rs:79-92 | a trailing space keeps the preview at `3` |
| Scenarios.SecondPlusPreview | src/interactive.rs:79-92 | a second `+` previews an emptied stack with the add error, because each preview reruns the whole buffer on the committed stack |

## Left out

- Terminal rendering is not modelled. This covers raw mode, termion escape sequences, and `write_stack_line`, `write_output_line` and `write_prompt_line` (`src/interactive.rs` lines 10-20 and 131-174). A step reports the preview it would draw instead.
- `src/main.rs` is not part of this model. It is a stdin/stdout loop around `execute_line`.
- Release-build arithmetic is not modelled. There, `+`, `-` and `*` wrap instead of panicking. The model follows the debug build, where overflow is a `Fault`.
- `itertools::join` is modelled by its effect only: outputs concatenated with no separator.
- Key decoding and its errors (the `unwrap` on each key) are left out. The keys arrive as a sequence of `Key` values. The end of that sequence is the end of `stdin.keys()`, where `run_line` returns `None`.
- Interpreter.Duplicate: the contract does not separately state that running a line on the copy leaves the original unchanged. Interpreters are immutable values here, so that holds by construction.
- Interactive.Run: its own contract states only the newline-free case. The quit keys and panics are covered by `QuitEndsRun` and `RunAborts`, and each commit by `TypeAndCommit` with `RunKeysAppend`. No lemma names the committed interpreter when the keys run out after one or more newlines.

=== FILE: arith.dfy ===
/** The five arithmetic words on Rust `i32` values, in a debug build: `+`,
    `-` and `*` panic when the exact result leaves the `i32` range, `/` and
    `%` truncate toward zero and panic on a zero divisor and on
    `i32::MIN` divided by -1. A panic is a `Fault`, never an error message. */
module Arith {
  import opened Numerals

  datatype Fault = DivisionByZero | Overflow

  datatype BinOp = Add | Subtract | Multiply | Divide | Mod {

    /** The name used in the interpreter's "less than two elements" message. */
    function Name(): string {
      match this
      case Add => "add"
      case Subtract => "subtract"
      case Multiply => "multiply"
      case Divide => "divide"
      case Mod => "mod"
    }
  }

  /** A checked `i32` operation: a value, or the panic it raises. */
  datatype Checked = Value(v: int) | Panic(fault: Fault)

  function Abs(x: int): nat {
    if x < 0 then -x else x
  }

  /** Rust's `/` on integers: the quotient of the magnitudes, negated when
      the signs differ (rounding toward zero). */
  function TruncDiv(a: int, b: int): (q: int)
    requires b != 0
    ensures Abs(q) * Abs(b) <= Abs(a) < (Abs(q) + 1) * Abs(b)
    ensures (a < 0) == (b < 0) ==> q >= 0
    ensures (a < 0) != (b < 0) ==> q <= 0
  {
    var q0 := Abs(a) / Abs(b);
    DivBracket(Abs(a), Abs(b));
    if (a < 0) == (b < 0) then q0 else -q0
  }

  /** The quotient of naturals is the largest multiple that fits. */
  lemma DivBracket(x: nat, m: nat)
    requires m > 0
    ensures (x / m) * m <= x < (x / m + 1) * m
  {
    var q := x / m;
    assert x == m * q + x % m;
    assert (q + 1) * m == q * m + m;
  }

  /** Putting the signs back on the quotient and remainder of the
      magnitudes keeps the division identity. */
  lemma SignedIdentity(a: int, b: int, q0: int, r0: int)
    requires b != 0 && Abs(a) == Abs(b) * q0 + r0
    ensures b * (if (a < 0) == (b < 0) then q0 else -q0) + (if a < 0 then -r0 else r0) == a
  {
    var B := Abs(b);
    if b < 0 {
      assert b * q0 == -(B * q0);
      assert b * -q0 == B * q0;
    } else {
      assert b * -q0 == -(B * q0);
    }
  }

  /** Rust's `%` on integers: the remainder of the magnitudes, with the
      sign of the dividend. It is what is left of the dividend after taking
      away the truncating quotient times the divisor. */
  function TruncRem(a: int, b: int): (r: int)
    requires b != 0
    ensures Abs(r) < Abs(b)
    ensures a >= 0 ==> r >= 0
    ensures a <= 0 ==> r <= 0
    ensures b * TruncDiv(a, b) + r == a
  {
    var q0: int, r0: int := Abs(a) / Abs(b), Abs(a) % Abs(b);
    SignedIdentity(a, b, q0, r0);
    assert TruncDiv(a, b) == if (a < 0) == (b < 0) then q0 else -q0;
    if a < 0 then -r0 else r0
  }

  lemma {:induction false} MulGrows(x: nat, y: nat)
    requires y >= 1
    ensures x <= x * y
    decreases y
  {
    if y > 1 {
      MulGrows(x, y - 1);
      assert x * y == x * (y - 1) + x;
    }
  }

  /** The truncating quotient is no larger than the dividend in magnitude. */
  lemma TruncDivBound(a: int, b: int)
    requires b != 0
    ensures Abs(TruncDiv(a, b)) <= Abs(a)
  {
    var q0: nat := Abs(a) / Abs(b);
    assert Abs(TruncDiv(a, b)) == q0;
    MulGrows(q0, Abs(b));
    assert Abs(b) * q0 <= Abs(a);
  }

  /** Truncating division and remainder fit together: quotient times divisor
      plus remainder gives back the dividend, the remainder is smaller than the
      divisor in magnitude and never has the opposite sign of the dividend,
      and the quotient is no larger than the dividend in magnitude. */
  lemma TruncDivRem(a: int, b: int)
    requires b != 0
    ensures b * TruncDiv(a, b) + TruncRem(a, b) == a
    ensures Abs(TruncRem(a, b)) < Abs(b)
    ensures a >= 0 ==> TruncRem(a, b) >= 0
    ensures a <= 0 ==> TruncRem(a, b) <= 0
    ensures Abs(TruncDiv(a, b)) <= Abs(a)
  {
    TruncDivBound(a, b);
  }

  /** Away from the two panicking cases, `/` and `%` on `i32` operands give
      `i32` results: the divisor and `i32::MIN / -1` checks are the only
      ones the operations need. */
  lemma DivRemInRange(a: int, b: int)
    requires InI32(a) && InI32(b) && b != 0
    requires !(a == MinI32 && b == -1)
    ensures InI32(TruncDiv(a, b)) && InI32(TruncRem(a, b))
  {
    TruncDivRem(a, b);
    var q0 := Abs(a) / Abs(b);
    if q0 == Abs(a) && Abs(a) == -MinI32 {
      assert Abs(b) * q0 <= Abs(a);
      assert Abs(b) == 1;
    }
  }

  /** `op(a, b)` where `a` is the element that was on top of the stack and
      `b` the one below it. */
  function Apply(op: BinOp, a: int, b: int): (r: Checked)
    ensures InI32(a) && InI32(b) && r.Value? ==> InI32(r.v)
    ensures r.Panic? && r.fault == DivisionByZero <==> (op == Divide || op == Mod) && b == 0
    ensures InI32(a) && InI32(b) && (op == Divide || op == Mod) ==>
              (r.Panic? <==> b == 0 || (a == MinI32 && b == -1))
    ensures op == Add ==> r == Check(a + b)
    ensures op == Subtract ==> r == Check(a - b)
    ensures op == Multiply ==> r == Check(a * b)
    ensures op == Divide && r.Value? ==> r.v == TruncDiv(a, b)
    ensures op == Mod && r.Value? ==> r.v == TruncRem(a, b)
  {
    match op
    case Add => Check(a + b)
    case Subtract => Check(a - b)
    case Multiply => Check(a * b)
    case Divide =>
      if b == 0 then Panic(DivisionByZero)
      else if a == MinI32 && b == -1 then Panic(Overflow)
      else
        assert InI32(a) && InI32(b) ==> InI32(TruncDiv(a, b)) by {
          if InI32(a) && InI32(b) { DivRemInRange(a, b); }
        }
        Value(TruncDiv(a, b))
    case Mod =>
      if b == 0 then Panic(DivisionByZero)
      else if a == MinI32 && b == -1 then Panic(Overflow)
      else
        assert InI32(a) && InI32(b) ==> InI32(TruncRem(a, b)) by {
          if InI32(a) && InI32(b) { DivRemInRange(a, b); }
        }
        Value(TruncRem(a, b))
  }

  /** Overflow checking for `+`, `-` and `*`. */
  function Check(x: int): (r: Checked)
    ensures r.Value? <==> InI32(x)
    ensures r.Value? ==> r.v == x
    ensures r.Panic? ==> r.fault == Overflow
  {
    if InI32(x) then Value(x) else Panic(Overflow)
  }
}

=== FILE: interactive.dfy ===
/** The live line editor of `src/interactive.rs` as a state machine. A session
    holds the committed interpreter, the edit buffer and the cursor. Each key
    is one `Step`. Every edit of the buffer re-runs the whole buffer on a fresh
    duplicate of the committed interpreter to preview it. Only the newline key
    replaces the committed interpreter. Terminal rendering is left out: a step
    reports the preview it would draw, if any. */
module Interactive {
  import opened Optional
  import opened Arith
  import opened Interpreter

  /** The keys `run_line` tells apart. `Other` stands for every other key the
      terminal reports (up and down arrows, Home, End, Alt chords, function
      keys, ...), all of which fall into the ignoring branch. */
  datatype Key = Char(c: char) | Ctrl(c: char) | Left | Right | Backspace | Other

  /** The committed interpreter `run` holds, and the local line state of the
      current `run_line` call. */
  datatype Session = Session(committed: Interpreter, buffer: string, cursor: nat)

  /** The cursor stays within the buffer; `run_line` keeps this throughout. */
  predicate Valid(s: Session) {
    s.cursor <= |s.buffer|
  }

  /** What the stack and output lines show after an evaluation: the stack of
      the evaluated duplicate and the line's output. */
  datatype Preview = Preview(stack: seq<int>, output: string)

  /** The effect of one key: the session goes on, possibly with a fresh
      preview; or the user quit; or an evaluation panicked, which ends the
      program. */
  datatype Outcome = Continue(next: Session, shown: Option<Preview>) | Quit | Crash(fault: Fault)

  /** A new `run_line`: empty buffer, cursor at 0. */
  function Start(i: Interpreter): (s: Session)
    ensures Valid(s) && s.committed == i
    ensures |s.buffer| == 0 && s.cursor == 0
  {
    Session(i, [], 0)
  }

  /** `Vec::insert`: `c` lands at index `i`, what was before stays, what was
      from `i` on moves one place right. */
  function InsertAt(b: string, i: nat, c: char): (r: string)
    requires i <= |b|
    ensures |r| == |b| + 1 && r[i] == c
    ensures forall j :: 0 <= j < i ==> r[j] == b[j]
    ensures forall j :: i <= j < |b| ==> r[j + 1] == b[j]
  {
    b[..i] + [c] + b[i..]
  }

  /** `Vec::remove`: the element at `i` goes, what was after it moves one
      place left. */
  function RemoveAt(b: string, i: nat): (r: string)
    requires i < |b|
    ensures |r| == |b| - 1
    ensures forall j :: 0 <= j < i ==> r[j] == b[j]
    ensures forall j :: i <= j < |r| ==> r[j] == b[j + 1]
  {
    b[..i] + b[i + 1..]
  }

  /** Removing what was just inserted gives the buffer back. */
  lemma RemoveInserted(b: string, i: nat, c: char)
    requires i <= |b|
    ensures RemoveAt(InsertAt(b, i, c), i) == b
  {
    var r := RemoveAt(InsertAt(b, i, c), i);
    assert forall j :: 0 <= j < |b| ==> r[j] == b[j];
  }

  /** The previewed evaluation: `execute_line` of the buffer on a fresh
      duplicate of the committed interpreter. The preview shows exactly what
      committing the same line would produce. */
  function Evaluate(committed: Interpreter, buffer: string): (r: LineResult)
    ensures r == ExecLine(committed, buffer)
    ensures AllI32(committed.dataStack) && r.LineDone? ==> AllI32(r.stack)
  {
    ExecLine(Duplicate(committed), buffer)
  }

  /** Evaluate the session's buffer and show the result; the session itself
      is kept. A panic in the evaluation ends the program. */
  function Refresh(s: Session): (r: Outcome)
    ensures r.Quit? == false
    ensures r.Continue? <==> Evaluate(s.committed, s.buffer).LineDone?
    ensures r.Crash? ==> r.fault == Evaluate(s.committed, s.buffer).fault
    ensures r.Continue? ==> r.next == s && r.shown.Some?
    ensures r.Continue? ==>
              Evaluate(s.committed, s.buffer) == LineDone(r.shown.value.stack, r.shown.value.output)
  {
    match Evaluate(s.committed, s.buffer)
    case LineDone(st, out) => Continue(s, Some(Preview(st, out)))
    case LinePanic(f) => Crash(f)
  }

  /** A printable key: insert at the cursor (or push when the cursor is at
      the end) and move the cursor past the new character. */
  function Insert(s: Session, c: char): (r: Session)
    requires Valid(s)
    ensures Valid(r) && r.committed == s.committed
    ensures r.buffer == InsertAt(s.buffer, s.cursor, c) && r.cursor == s.cursor + 1
  {
    var b := if |s.buffer| > s.cursor then InsertAt(s.buffer, s.cursor, c) else s.buffer + [c];
    Session(s.committed, b, s.cursor + 1)
  }

  /** Left arrow: one place left unless already at the start. */
  function MoveLeft(s: Session): (r: Session)
    ensures r.committed == s.committed && r.buffer == s.buffer
    ensures s.cursor > 0 ==> r.cursor + 1 == s.cursor
    ensures s.cursor == 0 ==> r == s
    ensures Valid(s) ==> Valid(r)
  {
    if s.cursor != 0 then s.(cursor := s.cursor - 1) else s
  }

  /** Right arrow: one place right, clamped to the end of the buffer. */
  function MoveRight(s: Session): (r: Session)
    requires Valid(s)
    ensures r.committed == s.committed && r.buffer == s.buffer && Valid(r)
    ensures s.cursor < |s.buffer| ==> r.cursor == s.cursor + 1
    ensures s.cursor == |s.buffer| ==> r == s
  {
    var c := s.cursor + 1;
    if c > |s.buffer| then s.(cursor := |s.buffer|) else s.(cursor := c)
  }

  /** Backspace away from the start: the character left of the cursor goes
      and the cursor moves onto its place. */
  function DeleteBack(s: Session): (r: Session)
    requires Valid(s) && s.cursor > 0
    ensures Valid(r) && r.committed == s.committed
    ensures r.buffer == RemoveAt(s.buffer, s.cursor - 1) && r.cursor + 1 == s.cursor
  {
    var c := s.cursor - 1;
    Session(s.committed, RemoveAt(s.buffer, c), c)
  }

  /** The newline key: run the whole buffer on a duplicate of the committed
      interpreter, show the result, make the duplicate the committed
      interpreter, and start a new line. */
  function Commit(s: Session): (r: Outcome)
    ensures r.Quit? == false
    ensures r.Crash? <==> Evaluate(s.committed, s.buffer).LinePanic?
    ensures r.Crash? ==> r.fault == Evaluate(s.committed, s.buffer).fault
    ensures r.Continue? ==>
              && r.next == Start(Interpreter(Evaluate(s.committed, s.buffer).stack))
              && r.shown == Some(Preview(Evaluate(s.committed, s.buffer).stack, Evaluate(s.committed, s.buffer).output))
  {
    match Evaluate(s.committed, s.buffer)
    case LineDone(st, out) => Continue(Start(Interpreter(st)), Some(Preview(st, out)))
    case LinePanic(f) => Crash(f)
  }

  /** One iteration of the key loop of `run_line`. */
  function Step(s: Session, k: Key): (r: Outcome)
    requires Valid(s)
    ensures r.Continue? ==> Valid(r.next)
    ensures r.Continue? && k != Char('\n') ==> r.next.committed == s.committed
    ensures r.Continue? && k != Char('\n') && r.shown.Some? ==>
              Evaluate(s.committed, r.next.buffer) == LineDone(r.shown.value.stack, r.shown.value.output)
    ensures r.Quit? <==> k == Ctrl('c') || k == Ctrl('d')
    ensures r.Crash? ==> k.Char? || k == Backspace
    ensures !k.Char? && k != Backspace && r.Continue? ==> r.shown.None?
    ensures k.Char? && k.c != '\n' ==> r == Refresh(Insert(s, k.c))
    ensures k == Backspace && s.cursor > 0 ==> r == Refresh(DeleteBack(s))
    ensures k == Left ==> r == Continue(MoveLeft(s), None)
    ensures k == Right ==> r == Continue(MoveRight(s), None)
    ensures k == Char('\n') ==> r == Commit(s)
    ensures k == Backspace && s.cursor == 0 ==> r == Continue(s, None)
    ensures k == Other || (k.Ctrl? && k.c != 'c' && k.c != 'd') ==> r == Continue(s, None)
  {
    match k
    case Ctrl(c) => if c == 'c' || c == 'd' then Quit else Continue(s, None)
    case Char(c) => if c == '\n' then Commit(s) else Refresh(Insert(s, c))
    case Left => Continue(MoveLeft(s), None)
    case Right => Continue(MoveRight(s), None)
    case Backspace => if s.cursor != 0 then Refresh(DeleteBack(s)) else Continue(s, None)
    case Other => Continue(s, None)
  }

  /** Typing a character and then backspacing restores the session and shows
      the same preview as re-evaluating the original buffer. */
  lemma InsertThenBackspace(s: Session, c: char)
    requires Valid(s) && c != '\n'
    requires Step(s, Char(c)).Continue?
    ensures Step(Step(s, Char(c)).next, Backspace) == Refresh(s)
  {
    var n := Step(s, Char(c)).next;
    assert n == Insert(s, c);
    RemoveInserted(s.buffer, s.cursor, c);
    assert DeleteBack(n) == s;
  }

  /** Left then right returns to the same place away from the start; right
      then left does away from the end. Neither evaluates anything. */
  lemma LeftRightInverse(s: Session)
    requires Valid(s)
    ensures s.cursor > 0 ==> Step(Step(s, Left).next, Right) == Continue(s, None)
    ensures s.cursor < |s.buffer| ==> Step(Step(s, Right).next, Left) == Continue(s, None)
  {
  }

  /** The result of feeding keys to a session: still editing when the keys
      run out, ended by the user with the committed interpreter at that
      point, or ended by a panic. */
  datatype Feed = Live(session: Session) | Ended(committed: Interpreter) | Died(fault: Fault)

  /** Feed keys one at a time, stopping at quit or panic. */
  function RunKeys(s: Session, keys: seq<Key>): (r: Feed)
    requires Valid(s)
    ensures r.Live? ==> Valid(r.session)
    decreases |keys|
  {
    if |keys| == 0 then Live(s)
    else
      match Step(s, keys[0])
      case Quit => Ended(s.committed)
      case Crash(f) => Died(f)
      case Continue(n, _) => RunKeys(n, keys[1..])
  }

  predicate NoNewline(keys: seq<Key>) {
    forall i :: 0 <= i < |keys| ==> keys[i] != Char('\n')
  }

  /** Feeding keys in two parts is feeding them at once. */
  lemma {:induction false} RunKeysAppend(s: Session, k1: seq<Key>, k2: seq<Key>)
    requires Valid(s)
    ensures RunKeys(s, k1 + k2) == match RunKeys(s, k1) {
              case Live(n) => RunKeys(n, k2)
              case Ended(c) => Ended(c)
              case Died(f) => Died(f)
            }
    decreases |k1|
  {
    if |k1| == 0 {
      assert k1 + k2 == k2;
    } else {
      assert (k1 + k2)[0] == k1[0];
      assert (k1 + k2)[1..] == k1[1..] + k2;
      match Step(s, k1[0])
      case Quit =>
      case Crash(f) =>
      case Continue(n, _) => RunKeysAppend(n, k1[1..], k2);
    }
  }

  /** Without a newline key the committed interpreter is never replaced,
      however the buffer was edited and however many previews ran. */
  lemma {:induction false} NoCommitKeepsCommitted(s: Session, keys: seq<Key>)
    requires Valid(s) && NoNewline(keys)
    ensures RunKeys(s, keys).Live? ==> RunKeys(s, keys).session.committed == s.committed
    ensures RunKeys(s, keys).Ended? ==> RunKeys(s, keys).committed == s.committed
    decreases |keys|
  {
    if |keys| > 0 {
      match Step(s, keys[0])
      case Quit =>
      case Crash(f) =>
      case Continue(n, _) =>
        assert NoNewline(keys[1..]) by {
          forall i | 0 <= i < |keys[1..]| ensures keys[1..][i] != Char('\n') {
            assert keys[1..][i] == keys[i + 1];
          }
        }
        NoCommitKeepsCommitted(n, keys[1..]);
    }
  }

  /** Previews depend on nothing but the committed interpreter and the
      current buffer: after any newline-free editing history, the preview a
      key shows is the evaluation of the buffer it leaves on a fresh
      duplicate of the interpreter the history started from. */
  lemma PreviewIgnoresHistory(s: Session, keys: seq<Key>, k: Key)
    requires Valid(s) && NoNewline(keys) && k != Char('\n')
    ensures RunKeys(s, keys).Live? ==>
              var r := Step(RunKeys(s, keys).session, k);
              r.Continue? && r.shown.Some? ==>
                Evaluate(s.committed, r.next.buffer) == LineDone(r.shown.value.stack, r.shown.value.output)
  {
    NoCommitKeepsCommitted(s, keys);
  }

  /** The keys produced by typing `line`. */
  function Typed(line: string): seq<Key> {
    if |line| == 0 then [] else [Char(line[0])] + Typed(line[1..])
  }

  lemma NoNewlineRest(line: string)
    requires |line| > 0 && '\n' !in line
    ensures line[0] != '\n' && '\n' !in line[1..]
  {
    assert line[0] in line;
    forall j | 0 <= j < |line[1..]| ensures line[1..][j] != '\n' { assert line[1..][j] == line[j + 1]; }
  }

  /** Typing a newline-free text at the cursor, one preview per character,
      stopping at the first preview that panics. */
  function TypeText(s: Session, line: string): (r: Feed)
    requires Valid(s)
    decreases |line|
  {
    if |line| == 0 then Live(s)
    else
      match Refresh(Insert(s, line[0]))
      case Continue(n, _) => TypeText(n, line[1..])
      case Crash(f) => Died(f)
      case Quit => Ended(s.committed)
  }

  /** Feeding the typed keys of a newline-free text is typing it. */
  lemma {:induction false} RunKeysTyped(s: Session, line: string)
    requires Valid(s) && '\n' !in line
    ensures RunKeys(s, Typed(line)) == TypeText(s, line)
    decreases |line|
  {
    if |line| > 0 {
      NoNewlineRest(line);
      var keys := Typed(line);
      assert keys[0] == Char(line[0]) && keys[1..] == Typed(line[1..]);
      match Refresh(Insert(s, line[0]))
      case Continue(n, _) => RunKeysTyped(n, line[1..]);
      case Crash(f) =>
    }
  }

  /** Typing at the end of the buffer appends the text and leaves the cursor
      at the end, unless one of the previews panics. */
  lemma {:induction false} TypeTextAtEnd(s: Session, line: string)
    requires Valid(s) && s.cursor == |s.buffer|
    ensures TypeText(s, line).Died? ||
            TypeText(s, line) == Live(Session(s.committed, s.buffer + line, |s.buffer| + |line|))
    decreases |line|
  {
    if |line| == 0 {
      assert s.buffer + line == s.buffer;
    } else {
      var n := Insert(s, line[0]);
      assert n == Session(s.committed, s.buffer + [line[0]], |s.buffer| + 1);
      assert n.buffer + line[1..] == s.buffer + line;
      match Refresh(n)
      case Continue(n', _) => TypeTextAtEnd(n', line[1..]);
      case Crash(_) =>
    }
  }

  /** One character typed at the end of the buffer: when the preview of the
      longer buffer survives, typing goes on from there; when it panics, the
      program ends with that fault. */
  lemma TypeFirst(s: Session, line: string)
    requires Valid(s) && s.cursor == |s.buffer| && |line| > 0
    ensures Evaluate(s.committed, s.buffer + [line[0]]).LineDone? ==>
              TypeText(s, line) == TypeText(Session(s.committed, s.buffer + [line[0]], |s.buffer| + 1), line[1..])
    ensures Evaluate(s.committed, s.buffer + [line[0]]).LinePanic? ==>
              TypeText(s, line) == Died(Evaluate(s.committed, s.buffer + [line[0]]).fault)
  {
    assert Insert(s, line[0]) == Session(s.committed, s.buffer + [line[0]], |s.buffer| + 1);
  }

  /** The keys of `a + b` are the keys of `a`, then those of `b`. */
  lemma {:induction false} TypedAppend(a: string, b: string)
    ensures Typed(a + b) == Typed(a) + Typed(b)
    decreases |a|
  {
    if |a| == 0 {
      assert a + b == b;
    } else {
      assert (a + b)[0] == a[0] && (a + b)[1..] == a[1..] + b;
      TypedAppend(a[1..], b);
    }
  }

  /** Every buffer on the way from `buffer` to `buffer + line`, one typed
      character at a time, previews without a panic. */
  predicate PreviewsComplete(committed: Interpreter, buffer: string, line: string) {
    forall k :: 0 < k <= |line| ==> Evaluate(committed, buffer + line[..k]).LineDone?
  }

  lemma PreviewsFirst(committed: Interpreter, buffer: string, line: string)
    requires |line| > 0
    ensures PreviewsComplete(committed, buffer, line) <==>
            && Evaluate(committed, buffer + [line[0]]).LineDone?
            && PreviewsComplete(committed, buffer + [line[0]], line[1..])
  {
    forall k | 0 < k <= |line[1..]|
      ensures buffer + [line[0]] + line[1..][..k] == buffer + line[..k + 1]
    {
      assert line[..k + 1] == [line[0]] + line[1..][..k];
    }
    assert line[..1] == [line[0]];
    if Evaluate(committed, buffer + [line[0]]).LineDone? && PreviewsComplete(committed, buffer + [line[0]], line[1..]) {
      forall k | 0 < k <= |line|
        ensures Evaluate(committed, buffer + line[..k]).LineDone?
      {
        if k > 1 {
          assert buffer + [line[0]] + line[1..][..k - 1] == buffer + line[..k];
        }
      }
    }
  }

  /** Typing at the end of the buffer survives exactly when the preview of
      every longer buffer on the way completes. */
  lemma {:induction false} TypeTextLive(s: Session, line: string)
    requires Valid(s) && s.cursor == |s.buffer|
    ensures TypeText(s, line).Live? <==> PreviewsComplete(s.committed, s.buffer, line)
    decreases |line|
  {
    if |line| > 0 {
      var n := Insert(s, line[0]);
      assert n == Session(s.committed, s.buffer + [line[0]], |s.buffer| + 1);
      PreviewsFirst(s.committed, s.buffer, line);
      if Refresh(n).Continue? {
        TypeTextLive(n, line[1..]);
      }
    }
  }

  /** Typing a newline-free text at the end of the buffer appends it and
      leaves the cursor at the end, unless one of the previews panics. */
  lemma TypeAtEnd(s: Session, line: string)
    requires Valid(s) && s.cursor == |s.buffer| && '\n' !in line
    ensures RunKeys(s, Typed(line)).Died? ||
            RunKeys(s, Typed(line)) == Live(Session(s.committed, s.buffer + line, |s.buffer| + |line|))
  {
    RunKeysTyped(s, line);
    TypeTextAtEnd(s, line);
  }

  /** Typing a non-empty text at the end of the buffer previews the buffer
      with the whole text as its last step, so if typing survives, that
      evaluation did not panic. */
  lemma {:induction false} TypeTextPreviewsLine(s: Session, line: string)
    requires Valid(s) && s.cursor == |s.buffer| && |line| > 0
    ensures TypeText(s, line).Live? ==> Evaluate(s.committed, s.buffer + line).LineDone?
    decreases |line|
  {
    var n := Insert(s, line[0]);
    assert n == Session(s.committed, s.buffer + [line[0]], |s.buffer| + 1);
    assert n.buffer + line[1..] == s.buffer + line;
    if Refresh(n).Continue? && |line| > 1 {
      TypeTextPreviewsLine(n, line[1..]);
    } else if Refresh(n).Continue? {
      assert line[1..] == [];
      assert n.buffer == s.buffer + line;
    }
  }

  /** Typing a line into a fresh `run_line` and pressing Enter: if no
      preview on the way panicked, the line itself does not panic and Enter
      commits exactly the stack `execute_line` of the line produces; a line
      whose execution panics always ends the program, at the latest on
      Enter. */
  lemma TypeAndCommit(i: Interpreter, line: string)
    requires '\n' !in line
    ensures RunKeys(Start(i), Typed(line)).Live? ==>
              && ExecLine(i, line).LineDone?
              && RunKeys(Start(i), Typed(line) + [Char('\n')]) == Live(Start(Interpreter(ExecLine(i, line).stack)))
    ensures ExecLine(i, line).LinePanic? ==> RunKeys(Start(i), Typed(line) + [Char('\n')]).Died?
  {
    TypeAtEnd(Start(i), line);
    assert [] + line == line;
    RunKeysAppend(Start(i), Typed(line), [Char('\n')]);
    assert Duplicate(i) == i;
    if RunKeys(Start(i), Typed(line)).Live? {
      if |line| == 0 {
        BlankLine(i, line);
      } else {
        RunKeysTyped(Start(i), line);
        TypeTextPreviewsLine(Start(i), line);
      }
    }
  }

  /** How `run` ended: after a quit key or the end of the key stream, with the
      interpreter committed at that point; or by a panic. */
  datatype RunEnd = Finished(last: Interpreter) | Aborted(fault: Fault)

  /** `run`: repeat `run_line` from the given interpreter, each committed
      line starting the next one, until `run_line` returns `None`. */
  function Run(i: Interpreter, keys: seq<Key>): (r: RunEnd)
    ensures NoNewline(keys) && r.Finished? ==> r.last == i
  {
    assert NoNewline(keys) && RunKeys(Start(i), keys).Live? ==> RunKeys(Start(i), keys).session.committed == i by {
      if NoNewline(keys) { NoCommitKeepsCommitted(Start(i), keys); }
    }
    assert NoNewline(keys) && RunKeys(Start(i), keys).Ended? ==> RunKeys(Start(i), keys).committed == i by {
      if NoNewline(keys) { NoCommitKeepsCommitted(Start(i), keys); }
    }
    match RunKeys(Start(i), keys)
    case Live(s) => Finished(s.committed)
    case Ended(c) => Finished(c)
    case Died(f) => Aborted(f)
  }

  /** A quit key read while the line is being edited ends the feed at once,
      keeping the committed interpreter and ignoring every key after it. */
  lemma QuitEndsFeed(s: Session, k: Key, rest: seq<Key>)
    requires Valid(s)
    requires k == Ctrl('c') || k == Ctrl('d')
    ensures RunKeys(s, [k] + rest) == Ended(s.committed)
  {
    assert ([k] + rest)[0] == k;
  }

  /** `run` stops at the first quit key: whatever follows it, the result is
      the interpreter committed before it, which is the starting one when no
      line was committed on the way. */
  lemma QuitEndsRun(i: Interpreter, k1: seq<Key>, k: Key, k2: seq<Key>)
    requires k == Ctrl('c') || k == Ctrl('d')
    requires RunKeys(Start(i), k1).Live?
    ensures Run(i, k1 + [k] + k2) == Finished(RunKeys(Start(i), k1).session.committed)
    ensures NoNewline(k1) ==> Run(i, k1 + [k] + k2) == Finished(i)
  {
    var n := RunKeys(Start(i), k1).session;
    assert k1 + [k] + k2 == k1 + ([k] + k2);
    RunKeysAppend(Start(i), k1, [k] + k2);
    QuitEndsFeed(n, k, k2);
    if NoNewline(k1) {
      NoCommitKeepsCommitted(Start(i), k1);
    }
  }

  /** `run` ends in a panic exactly when an evaluation on the way panicked,
      with that evaluation's fault, and the keys after the panic are never
      read. */
  lemma RunAborts(i: Interpreter, keys: seq<Key>, later: seq<Key>)
    ensures Run(i, keys).Aborted? <==> RunKeys(Start(i), keys).Died?
    ensures RunKeys(Start(i), keys).Died? ==>
              Run(i, keys + later) == Aborted(RunKeys(Start(i), keys).fault)
  {
    RunKeysAppend(Start(i), keys, later);
  }
}

=== FILE: interpreter.dfy ===
/** The stack machine of `src/interpreter.rs`. An `Interpreter` owns a data
    stack of `i32` values (the last element of the sequence is the top);
    `ExecLine` runs every whitespace-separated token of a line in order and
    returns the new stack together with the concatenation of every output
    the tokens produced, error messages included. */
module Interpreter {
  import opened Optional
  import opened Numerals
  import opened Lexer
  import opened Arith

  datatype Interpreter = Interpreter(dataStack: seq<int>)

  /** What one token does: a new stack and an optional output, or a panic of
      the checked arithmetic, which ends the program. */
  datatype TokenResult = TokenDone(stack: seq<int>, out: Option<string>) | TokenPanic(fault: Fault)

  /** What a line does: a new stack and the concatenated output, or the panic
      of one of its tokens. */
  datatype LineResult = LineDone(stack: seq<int>, output: string) | LinePanic(fault: Fault)

  /** The invariant of `Vec<i32>`: every element fits in `i32`. */
  predicate AllI32(s: seq<int>) {
    forall i :: 0 <= i < |s| ==> InI32(s[i])
  }

  const PrintError := "ERROR: Can't print, empty stack"
  const DropError := "ERROR: Can't drop, empty stack"
  const DupError := "ERROR: Can't dup, empty stack"
  const SwapError := "ERROR: Can't swap, less than 2 elements on the stack"
  const RotError := "ERROR: Can't rot, less than 3 elements on the stack"

  function BinaryOpError(op: BinOp): string {
    "ERROR: Can't " + op.Name() + ", less than two elements on the stack"
  }

  function UnrecognizedError(tok: string): string {
    "ERROR: Unrecognized token: " + tok
  }

  /** The words that are not arithmetic. */
  predicate IsStackWord(tok: string) {
    tok == "." || tok == "drop" || tok == "dup" || tok == "swap" || tok == "rot"
  }

  /** The arithmetic word a token names, if any. The arithmetic words are
      neither literals nor stack words, so the dispatch reaches them. */
  function ArithWord(tok: string): (r: Option<BinOp>)
    ensures r.Some? <==> tok in ["+", "-", "*", "/", "mod"]
    ensures r.Some? ==> ParseI32(tok).None? && !IsStackWord(tok)
  {
    LoneSignIsNotLiteral();
    assert Magnitude("*") == "*" && Magnitude("/") == "/" && Magnitude("mod") == "mod";
    if tok == "+" then Some(Add)
    else if tok == "-" then Some(Subtract)
    else if tok == "*" then Some(Multiply)
    else if tok == "/" then Some(Divide)
    else if tok == "mod" then Some(Mod)
    else None
  }

  /** `Interpreter::new`. */
  function New(): (i: Interpreter)
    ensures |i.dataStack| == 0
  {
    Interpreter([])
  }

  /** `Interpreter::duplicate`: a copy with an equal stack. Interpreters are
      values here, so running a line on the copy cannot reach the original. */
  function Duplicate(i: Interpreter): (d: Interpreter)
    ensures d.dataStack == i.dataStack
  {
    Interpreter(i.dataStack)
  }

  /** `Vec::pop`: the top element, if there is one, and the stack without it. */
  function Pop(s: seq<int>): (r: (Option<int>, seq<int>))
    ensures |s| == 0 ==> r == (None, [])
    ensures |s| > 0 ==> r.0.Some? && r.1 + [r.0.value] == s
  {
    if |s| == 0 then (None, []) else (Some(s[|s| - 1]), s[..|s| - 1])
  }

  /** `.`: pop and print the top; on an empty stack, the error message. */
  function Print(s: seq<int>): (r: TokenResult)
    ensures AllI32(s) ==> r.TokenDone? && AllI32(r.stack)
    ensures |s| > 0 ==> r == TokenDone(s[..|s| - 1], Some(IntToString(s[|s| - 1])))
    ensures |s| == 0 ==> r == TokenDone([], Some(PrintError))
  {
    var (a, s1) := Pop(s);
    if a.Some? then TokenDone(s1, Some(IntToString(a.value))) else TokenDone(s1, Some(PrintError))
  }

  /** `drop`: pop and discard the top, silently. */
  function Drop(s: seq<int>): (r: TokenResult)
    ensures AllI32(s) ==> r.TokenDone? && AllI32(r.stack)
    ensures |s| > 0 ==> r == TokenDone(s[..|s| - 1], None)
    ensures |s| == 0 ==> r == TokenDone([], Some(DropError))
  {
    var (a, s1) := Pop(s);
    if a.Some? then TokenDone(s1, None) else TokenDone(s1, Some(DropError))
  }

  /** `dup`: pop the top and push it twice. */
  function Dup(s: seq<int>): (r: TokenResult)
    ensures AllI32(s) ==> r.TokenDone? && AllI32(r.stack)
    ensures |s| > 0 ==> r == TokenDone(s + [s[|s| - 1]], None)
    ensures |s| == 0 ==> r == TokenDone([], Some(DupError))
  {
    var (a, s1) := Pop(s);
    if a.Some? then TokenDone(s1 + [a.value] + [a.value], None) else TokenDone(s1, Some(DupError))
  }

  /** `swap`: both pops happen before the check, so a lone element is
      popped and lost on the error path. */
  function Swap(s: seq<int>): (r: TokenResult)
    ensures AllI32(s) ==> r.TokenDone? && AllI32(r.stack)
    ensures |s| >= 2 ==> r == TokenDone(s[..|s| - 2] + [s[|s| - 1], s[|s| - 2]], None)
    ensures |s| < 2 ==> r == TokenDone([], Some(SwapError))
  {
    var (a, s1) := Pop(s);
    var (b, s2) := Pop(s1);
    assert |s| >= 2 ==> s2 == s[..|s| - 2] && s1[|s1| - 1] == s[|s| - 2];
    if a.Some? && b.Some? then
      assert s2 + [a.value] + [b.value] == s2 + [a.value, b.value];
      TokenDone(s2 + [a.value] + [b.value], None)
    else TokenDone(s2, Some(SwapError))
  }

  /** `rot`: pop a, b, c (a was the top) and push b, a, c, so the element
      third from the top comes to the top and the top two move down keeping
      their order. All three pops happen before the check. */
  function Rot(s: seq<int>): (r: TokenResult)
    ensures AllI32(s) ==> r.TokenDone? && AllI32(r.stack)
    ensures |s| >= 3 ==> r == TokenDone(s[..|s| - 3] + [s[|s| - 2], s[|s| - 1], s[|s| - 3]], None)
    ensures |s| < 3 ==> r == TokenDone([], Some(RotError))
  {
    var (a, s1) := Pop(s);
    var (b, s2) := Pop(s1);
    var (c, s3) := Pop(s2);
    assert |s| >= 3 ==> s3 == s[..|s| - 3] && s1[|s1| - 1] == s[|s| - 2] && s2[|s2| - 1] == s[|s| - 3];
    if a.Some? && b.Some? && c.Some? then
      assert s3 + [b.value] + [a.value] + [c.value] == s3 + [b.value, a.value, c.value];
      TokenDone(s3 + [b.value] + [a.value] + [c.value], None)
    else TokenDone(s3, Some(RotError))
  }

  /** `execute_binary_op`: pop a (the top) then b, push `op(a, b)`. Both pops
      happen before the check, so with fewer than two elements the stack ends
      up empty. A checked operation that panics ends the program. */
  function BinaryOp(s: seq<int>, op: BinOp): (r: TokenResult)
    ensures AllI32(s) && r.TokenDone? ==> AllI32(r.stack)
    ensures |s| < 2 ==> r == TokenDone([], Some(BinaryOpError(op)))
    ensures |s| >= 2 ==> (r.TokenPanic? <==> Apply(op, s[|s| - 1], s[|s| - 2]).Panic?)
    ensures |s| >= 2 && r.TokenDone? ==>
              && |r.stack| == |s| - 1
              && r.stack[..|s| - 2] == s[..|s| - 2]
              && Apply(op, s[|s| - 1], s[|s| - 2]) == Value(r.stack[|s| - 2])
              && r.out == None
  {
    var (a, s1) := Pop(s);
    var (b, s2) := Pop(s1);
    if a.Some? && b.Some? then
      match Apply(op, a.value, b.value)
      case Value(v) => TokenDone(s2 + [v], None)
      case Panic(f) => TokenPanic(f)
    else TokenDone(s2, Some(BinaryOpError(op)))
  }

  /** `execute_token`: an `i32` literal is pushed silently; otherwise the token
      is looked up in the word table; anything else leaves the stack alone and
      reports the token as unrecognized. */
  function ExecToken(s: seq<int>, tok: string): (r: TokenResult)
    ensures ParseI32(tok).Some? ==> r == TokenDone(s + [ParseI32(tok).value], None)
    ensures ParseI32(tok).None? && !IsStackWord(tok) && ArithWord(tok).None? ==>
              r == TokenDone(s, Some(UnrecognizedError(tok)))
    ensures r.TokenPanic? ==> ParseI32(tok).None? && ArithWord(tok).Some?
    ensures AllI32(s) && r.TokenDone? ==> AllI32(r.stack)
    ensures r.TokenDone? ==> |r.stack| <= |s| + 1
  {
    match ParseI32(tok)
    case Some(v) => TokenDone(s + [v], None)
    case None =>
      if tok == "." then Print(s)
      else if tok == "drop" then Drop(s)
      else if tok == "dup" then Dup(s)
      else if tok == "swap" then Swap(s)
      else if tok == "rot" then Rot(s)
      else match ArithWord(tok)
        case Some(op) => BinaryOp(s, op)
        case None => TokenDone(s, Some(UnrecognizedError(tok)))
  }

  /** Each of the ten words performs its own operation: none of them is a
      literal, and the dispatch sends each to its arm. */
  lemma ExecTokenWords(s: seq<int>, tok: string)
    ensures tok == "." ==> ExecToken(s, tok) == Print(s)
    ensures tok == "drop" ==> ExecToken(s, tok) == Drop(s)
    ensures tok == "dup" ==> ExecToken(s, tok) == Dup(s)
    ensures tok == "swap" ==> ExecToken(s, tok) == Swap(s)
    ensures tok == "rot" ==> ExecToken(s, tok) == Rot(s)
    ensures tok == "+" ==> ExecToken(s, tok) == BinaryOp(s, Add)
    ensures tok == "-" ==> ExecToken(s, tok) == BinaryOp(s, Subtract)
    ensures tok == "*" ==> ExecToken(s, tok) == BinaryOp(s, Multiply)
    ensures tok == "/" ==> ExecToken(s, tok) == BinaryOp(s, Divide)
    ensures tok == "mod" ==> ExecToken(s, tok) == BinaryOp(s, Mod)
  {
    if IsStackWord(tok) {
      WordIsNotLiteral(tok);
      assert ParseI32(tok).None?;
    } else if ArithWord(tok).Some? {
      assert ParseI32(tok).None?;
    }
  }

  /** The text a token contributes to the line's output: `filter_map` keeps
      the `Some` outputs and `join` with `""` runs them together. */
  function OutText(out: Option<string>): string {
    out.GetOr("")
  }

  /** A token's output in front of the outcome of the rest of the line. */
  function Prepend(out: string, r: LineResult): LineResult {
    match r
    case LinePanic(f) => LinePanic(f)
    case LineDone(s, rest) => LineDone(s, out + rest)
  }

  lemma PrependTwice(a: string, b: string, r: LineResult)
    ensures Prepend(a, Prepend(b, r)) == Prepend(a + b, r)
  {
    if r.LineDone? {
      assert a + (b + r.output) == (a + b) + r.output;
    }
  }

  /** Every token runs, left to right, whatever earlier tokens reported; the
      outputs are concatenated in order with no separator. */
  function RunTokens(s: seq<int>, ts: seq<string>): (r: LineResult)
    ensures AllI32(s) && r.LineDone? ==> AllI32(r.stack)
    ensures r.LineDone? ==> |r.stack| <= |s| + |ts|
    decreases |ts|
  {
    if |ts| == 0 then LineDone(s, "")
    else
      match ExecToken(s, ts[0])
      case TokenPanic(f) => LinePanic(f)
      case TokenDone(s1, out) => Prepend(OutText(out), RunTokens(s1, ts[1..]))
  }

  /** Only arithmetic can panic: a line that panics holds an arithmetic word
      somewhere. */
  lemma {:induction false} PanicNeedsArith(s: seq<int>, ts: seq<string>)
    ensures RunTokens(s, ts).LinePanic? ==> exists k :: 0 <= k < |ts| && ArithWord(ts[k]).Some?
    decreases |ts|
  {
    if |ts| > 0 {
      match ExecToken(s, ts[0])
      case TokenPanic(f) =>
      case TokenDone(s1, out) =>
        PanicNeedsArith(s1, ts[1..]);
        if RunTokens(s1, ts[1..]).LinePanic? {
          var k :| 0 <= k < |ts[1..]| && ArithWord(ts[1..][k]).Some?;
          assert ts[1..][k] == ts[k + 1];
        }
    }
  }

  /** `execute_line`. */
  function ExecLine(i: Interpreter, line: string): (r: LineResult)
    ensures AllI32(i.dataStack) && r.LineDone? ==> AllI32(r.stack)
  {
    RunTokens(i.dataStack, SplitWhitespace(line))
  }

  /** Continue a partial run with more tokens: a panic stays a panic, and
      otherwise the remaining tokens run on the stack left behind, their
      output appended. */
  function Then(r: LineResult, ts: seq<string>): LineResult {
    match r
    case LinePanic(f) => LinePanic(f)
    case LineDone(s, out) => Prepend(out, RunTokens(s, ts))
  }

  lemma RunTokensFirst(s: seq<int>, ts: seq<string>, s1: seq<int>, out: Option<string>)
    requires |ts| > 0 && ExecToken(s, ts[0]) == TokenDone(s1, out)
    ensures RunTokens(s, ts) == Prepend(OutText(out), RunTokens(s1, ts[1..]))
  {
  }

  lemma ThenPrepend(out: string, r: LineResult, ts: seq<string>)
    ensures Then(Prepend(out, r), ts) == Prepend(out, Then(r, ts))
  {
    if r.LineDone? {
      PrependTwice(out, r.output, RunTokens(r.stack, ts));
    }
  }

  /** Running a token sequence in two parts is the same as running it whole:
      nothing about the first part, errors included, stops the second. */
  lemma {:induction false} RunTokensAppend(s: seq<int>, ts1: seq<string>, ts2: seq<string>)
    ensures RunTokens(s, ts1 + ts2) == Then(RunTokens(s, ts1), ts2)
    decreases |ts1|
  {
    if |ts1| == 0 {
      assert ts1 + ts2 == ts2;
      if RunTokens(s, ts2).LineDone? {
        assert "" + RunTokens(s, ts2).output == RunTokens(s, ts2).output;
      }
    } else {
      var ts := ts1 + ts2;
      assert ts[0] == ts1[0];
      assert ts[1..] == ts1[1..] + ts2;
      match ExecToken(s, ts1[0])
      case TokenPanic(f) =>
      case TokenDone(s1, out) =>
        RunTokensAppend(s1, ts1[1..], ts2);
        RunTokensFirst(s, ts, s1, out);
        RunTokensFirst(s, ts1, s1, out);
        ThenPrepend(OutText(out), RunTokens(s1, ts1[1..]), ts2);
    }
  }

  /** A token that reports an error does not stop the line: the tokens after
      it run on the stack it left, and its message leads their output. */
  lemma ErrorDoesNotStop(s: seq<int>, tok: string, ts: seq<string>, msg: string, s1: seq<int>)
    requires ExecToken(s, tok) == TokenDone(s1, Some(msg))
    ensures RunTokens(s, [tok] + ts) == Then(LineDone(s1, msg), ts)
  {
    assert ([tok] + ts)[0] == tok;
    assert ([tok] + ts)[1..] == ts;
  }

  predicate AllLiterals(ts: seq<string>) {
    forall i :: 0 <= i < |ts| ==> ParseI32(ts[i]).Some?
  }

  function LiteralValues(ts: seq<string>): seq<int>
    requires AllLiterals(ts)
  {
    if |ts| == 0 then [] else [ParseI32(ts[0]).value] + LiteralValues(ts[1..])
  }

  lemma AllLiteralsTail(ts: seq<string>)
    requires |ts| > 0 && AllLiterals(ts)
    ensures AllLiterals(ts[1..])
  {
    assert forall i :: 0 <= i < |ts| - 1 ==> ts[1..][i] == ts[i + 1];
  }

  lemma LiteralValuesFirst(ts: seq<string>)
    requires |ts| > 0 && AllLiterals(ts)
    ensures AllLiterals(ts[1..])
    ensures LiteralValues(ts) == [ParseI32(ts[0]).value] + LiteralValues(ts[1..])
  {
    AllLiteralsTail(ts);
  }

  /** The values of a run of literals, one per token, in order. */
  lemma {:induction false} LiteralValuesAt(ts: seq<string>)
    requires AllLiterals(ts)
    ensures |LiteralValues(ts)| == |ts|
    ensures forall k :: 0 <= k < |ts| ==> LiteralValues(ts)[k] == ParseI32(ts[k]).value
    decreases |ts|
  {
    if |ts| > 0 {
      LiteralValuesFirst(ts);
      LiteralValuesAt(ts[1..]);
      forall k | 0 <= k < |ts|
        ensures LiteralValues(ts)[k] == ParseI32(ts[k]).value
      {
        if k > 0 {
          assert ts[1..][k - 1] == ts[k];
        }
      }
    }
  }

  /** A run of literals pushes their values in order and prints nothing. */
  lemma {:induction false} LiteralsPush(s: seq<int>, ts: seq<string>)
    requires AllLiterals(ts)
    ensures RunTokens(s, ts) == LineDone(s + LiteralValues(ts), "")
    decreases |ts|
  {
    if |ts| > 0 {
      var v := ParseI32(ts[0]).value;
      LiteralValuesFirst(ts);
      var rest := LiteralValues(ts[1..]);
      assert ExecToken(s, ts[0]) == TokenDone(s + [v], None);
      LiteralsPush(s + [v], ts[1..]);
      RunTokensFirst(s, ts, s + [v], None);
      assert s + [v] + rest == s + ([v] + rest);
    }
  }

  /** A blank line prints nothing and leaves the stack as it was. */
  lemma BlankLine(i: Interpreter, line: string)
    requires IsBlank(line)
    ensures ExecLine(i, line) == LineDone(i.dataStack, "")
  {
    SplitBlank(line);
  }

  /** A line is the sum of its tokens: splitting the line and running the
      tokens one after another is what `execute_line` does, so two lines
      joined by a space run as the first followed by the second. */
  lemma ExecLineConcat(i: Interpreter, line1: string, line2: string)
    ensures ExecLine(i, Unwords(SplitWhitespace(line1) + SplitWhitespace(line2))) ==
            Then(ExecLine(i, line1), SplitWhitespace(line2))
  {
    var ts := SplitWhitespace(line1) + SplitWhitespace(line2);
    SplitUnwords(ts);
    RunTokensAppend(i.dataStack, SplitWhitespace(line1), SplitWhitespace(line2));
  }

  /** A numeral outside the `i32` range is not a literal and names no word,
      so it is reported as unrecognized and the stack is kept. */
  lemma OutOfRangeNumeral(s: seq<int>, tok: string)
    requires IsNumeral(tok) && !InI32(NumeralValue(tok))
    ensures ExecToken(s, tok) == TokenDone(s, Some(UnrecognizedError(tok)))
  {
    assert tok != "." && tok != "drop" && tok != "dup" && tok != "swap" && tok != "rot" by {
      assert !IsDigit('.') && !IsDigit('d') && !IsDigit('s') && !IsDigit('r');
      assert Magnitude(tok)[0] == tok[0] || Magnitude(tok)[0] == tok[1];
    }
    assert ArithWord(tok).None? by {
      if |tok| == 3 { assert IsDigit(tok[1]); }
    }
  }
}

=== FILE: lexer.dfy ===
/** Splitting a line into tokens the way Rust's `str::split_whitespace` does:
    maximal runs of non-whitespace characters, in order, with every run of
    whitespace (leading, trailing or between tokens) acting as a separator. */
module Lexer {

  /** `char::is_whitespace`: the characters with the Unicode White_Space
      property. */
  predicate IsWhitespace(c: char) {
    || c == ' '
    || ('\t' <= c <= '\r')
    || c == '\U{85}'
    || c == '\U{A0}'
    || c == '\U{1680}'
    || ('\U{2000}' <= c <= '\U{200A}')
    || c == '\U{2028}'
    || c == '\U{2029}'
    || c == '\U{202F}'
    || c == '\U{205F}'
    || c == '\U{3000}'
  }

  /** A token: non-empty and free of whitespace. */
  predicate IsToken(w: string) {
    |w| > 0 && forall i :: 0 <= i < |w| ==> !IsWhitespace(w[i])
  }

  predicate IsBlank(s: string) {
    forall i :: 0 <= i < |s| ==> IsWhitespace(s[i])
  }

  /** Length of the longest whitespace-free prefix of `s`. */
  function TokenLength(s: string): (n: nat)
    ensures n <= |s|
    ensures forall i :: 0 <= i < n ==> !IsWhitespace(s[i])
    ensures n < |s| ==> IsWhitespace(s[n])
  {
    if |s| == 0 || IsWhitespace(s[0]) then 0 else 1 + TokenLength(s[1..])
  }

  /** `split_whitespace`, collected into a sequence. */
  function SplitWhitespace(s: string): (ts: seq<string>)
    ensures forall i :: 0 <= i < |ts| ==> IsToken(ts[i])
    decreases |s|
  {
    if |s| == 0 then []
    else if IsWhitespace(s[0]) then SplitWhitespace(s[1..])
    else
      var n := TokenLength(s);
      [s[..n]] + SplitWhitespace(s[n..])
  }

  /** The tokens written out with one space between neighbours. */
  function Unwords(ts: seq<string>): string {
    if |ts| == 0 then []
    else if |ts| == 1 then ts[0]
    else ts[0] + [' '] + Unwords(ts[1..])
  }

  /** A token followed by whitespace (or by nothing) is split off whole. */
  lemma SplitLeadingToken(w: string, rest: string)
    requires IsToken(w)
    requires |rest| == 0 || IsWhitespace(rest[0])
    ensures SplitWhitespace(w + rest) == [w] + SplitWhitespace(rest)
  {
    var s := w + rest;
    var n := TokenLength(s);
    assert forall i :: 0 <= i < |w| ==> s[i] == w[i];
    assert |rest| > 0 ==> s[|w|] == rest[0];
    assert n == |w|;
    assert s[..n] == w;
    assert s[n..] == rest;
  }

  /** The length of the leading token is fixed by where the first
      whitespace character is. */
  lemma TokenLengthAt(s: string, k: nat)
    requires k <= |s|
    requires forall i :: 0 <= i < k ==> !IsWhitespace(s[i])
    requires k < |s| ==> IsWhitespace(s[k])
    ensures TokenLength(s) == k
  {
  }

  /** Every whitespace character separates: splitting `a`, one whitespace
      character and `b` gives the tokens of `a` followed by the tokens of
      `b`, whether the character is a space, a tab or one of a run. */
  lemma {:induction false} SplitAtWhitespace(a: string, c: char, b: string)
    requires IsWhitespace(c)
    ensures SplitWhitespace(a + [c] + b) == SplitWhitespace(a) + SplitWhitespace(b)
    decreases |a|
  {
    var s := a + [c] + b;
    if |a| == 0 {
      assert s[1..] == b;
    } else if IsWhitespace(a[0]) {
      assert s[0] == a[0];
      assert s[1..] == a[1..] + [c] + b;
      SplitAtWhitespace(a[1..], c, b);
    } else {
      var m := TokenLength(a);
      assert forall i :: 0 <= i < m ==> s[i] == a[i];
      assert m == |a| ==> s[m] == c;
      assert m < |a| ==> s[m] == a[m];
      TokenLengthAt(s, m);
      assert s[..m] == a[..m];
      assert s[m..] == a[m..] + [c] + b;
      SplitAtWhitespace(a[m..], c, b);
    }
  }

  /** Joining tokens with spaces and splitting the line again recovers the
      tokens. */
  lemma {:induction false} SplitUnwords(ts: seq<string>)
    requires forall i :: 0 <= i < |ts| ==> IsToken(ts[i])
    ensures SplitWhitespace(Unwords(ts)) == ts
  {
    if |ts| == 0 {
    } else if |ts| == 1 {
      SplitLeadingToken(ts[0], []);
      assert ts[0] + [] == ts[0];
    } else {
      var rest := Unwords(ts[1..]);
      SplitUnwords(ts[1..]);
      assert ([' '] + rest)[1..] == rest;
      SplitLeadingToken(ts[0], [' '] + rest);
      assert ts[0] + [' '] + rest == ts[0] + ([' '] + rest);
    }
  }

  /** A line has no tokens exactly when it is blank. */
  lemma {:induction false} SplitBlank(s: string)
    ensures SplitWhitespace(s) == [] <==> IsBlank(s)
    decreases |s|
  {
    if |s| > 0 && IsWhitespace(s[0]) {
      SplitBlank(s[1..]);
      assert forall i :: 1 <= i < |s| ==> s[i] == s[1..][i - 1];
    }
  }

  /** The characters of `s` that are not whitespace, in order. */
  function NonWhitespace(s: string): string {
    if |s| == 0 then []
    else (if IsWhitespace(s[0]) then [] else [s[0]]) + NonWhitespace(s[1..])
  }

  function Concat(ts: seq<string>): string {
    if |ts| == 0 then [] else ts[0] + Concat(ts[1..])
  }

  lemma {:induction false} NonWhitespaceAppend(a: string, b: string)
    ensures NonWhitespace(a + b) == NonWhitespace(a) + NonWhitespace(b)
    decreases |a|
  {
    if |a| > 0 {
      assert (a + b)[1..] == a[1..] + b;
      NonWhitespaceAppend(a[1..], b);
    } else {
      assert a + b == b;
    }
  }

  lemma {:induction false} NonWhitespaceOfToken(w: string)
    requires forall i :: 0 <= i < |w| ==> !IsWhitespace(w[i])
    ensures NonWhitespace(w) == w
    decreases |w|
  {
    if |w| > 0 {
      NonWhitespaceOfToken(w[1..]);
      assert [w[0]] + w[1..] == w;
    }
  }

  /** Splitting loses nothing but whitespace: the tokens, run together,
      are exactly the line's non-whitespace characters in order. */
  lemma {:induction false} SplitKeepsContent(s: string)
    ensures Concat(SplitWhitespace(s)) == NonWhitespace(s)
    decreases |s|
  {
    if |s| > 0 && IsWhitespace(s[0]) {
      SplitKeepsContent(s[1..]);
    } else if |s| > 0 {
      var n := TokenLength(s);
      var ts := SplitWhitespace(s);
      assert ts == [s[..n]] + SplitWhitespace(s[n..]);
      assert ts[1..] == SplitWhitespace(s[n..]);
      SplitKeepsContent(s[n..]);
      NonWhitespaceOfToken(s[..n]);
      NonWhitespaceAppend(s[..n], s[n..]);
      assert s[..n] + s[n..] == s;
    }
  }
}

=== FILE: numerals.dfy ===
/** Decimal text of 32-bit signed integers, as the interpreter uses it: Rust's
    `str::parse::<i32>` decides which tokens are literals, and `i32::to_string`
    renders the value that `.` prints. */
module Numerals {
  import opened Optional

  const MinI32: int := -0x8000_0000
  const MaxI32: int := 0x7fff_ffff

  /** True when `x` fits in Rust's `i32`. */
  predicate InI32(x: int) {
    MinI32 <= x <= MaxI32
  }

  predicate IsDigit(c: char) {
    '0' <= c <= '9'
  }

  predicate AllDigits(s: string) {
    forall i :: 0 <= i < |s| ==> IsDigit(s[i])
  }

  function DigitValue(c: char): (d: nat)
    requires IsDigit(c)
    ensures d < 10
  {
    c as int - '0' as int
  }

  function DigitChar(d: nat): (c: char)
    requires d < 10
    ensures IsDigit(c) && DigitValue(c) == d
  {
    ('0' as int + d) as char
  }

  /** The value of a run of decimal digits, most significant digit first. */
  function DigitsValue(s: string): nat
    requires AllDigits(s)
  {
    if |s| == 0 then 0 else DigitsValue(s[..|s| - 1]) * 10 + DigitValue(s[|s| - 1])
  }

  /** The shortest decimal digits of `n`: never empty, no leading zero, and
      reading them back gives `n`. */
  function NatToDigits(n: nat): (s: string)
    ensures 1 <= |s| && AllDigits(s)
    ensures DigitsValue(s) == n
    ensures |s| > 1 ==> s[0] != '0'
  {
    if n < 10 then [DigitChar(n)]
    else
      var t := NatToDigits(n / 10);
      var s := t + [DigitChar(n % 10)];
      assert s[..|s| - 1] == t;
      assert |t| == 1 ==> DigitsValue(t) == DigitValue(t[0]) by {
        if |t| == 1 { assert t[..0] == []; }
      }
      s
  }

  /** `i32::to_string`: a minus sign for negative values, then the digits of
      the magnitude. */
  function IntToString(v: int): (r: string)
    ensures IsNumeral(r) && NumeralValue(r) == v
    ensures Canonical(r)
  {
    if v < 0 then
      var r := "-" + NatToDigits(-v);
      assert Magnitude(r) == NatToDigits(-v);
      r
    else
      NatToDigits(v)
  }

  /** The form `i32::to_string` produces: no `+`, no leading zero, and a
      minus sign only on a value below zero. */
  predicate Canonical(tok: string) {
    && IsNumeral(tok)
    && tok[0] != '+'
    && (|Magnitude(tok)| > 1 ==> Magnitude(tok)[0] != '0')
    && (tok[0] == '-' ==> NumeralValue(tok) != 0)
  }

  predicate IsSign(c: char) {
    c == '+' || c == '-'
  }

  /** The token with one leading sign character removed, if it has one. */
  function Magnitude(tok: string): string {
    if |tok| > 0 && IsSign(tok[0]) then tok[1..] else tok
  }

  /** The shape `str::parse::<i32>` accepts: an optional `+` or `-`, then one
      or more ASCII digits (leading zeros allowed). */
  predicate IsNumeral(tok: string) {
    |Magnitude(tok)| > 0 && AllDigits(Magnitude(tok))
  }

  /** The exact integer a numeral denotes, before any range check. */
  function NumeralValue(tok: string): int
    requires IsNumeral(tok)
  {
    if tok[0] == '-' then 0 - DigitsValue(Magnitude(tok)) else DigitsValue(Magnitude(tok)) as int
  }

  /** `str::parse::<i32>`: a numeral whose value fits in `i32`. Anything else
      (a lone sign, a stray character, a value out of range) is not a literal. */
  function ParseI32(tok: string): (r: Option<int>)
    ensures r.Some? ==> InI32(r.value)
    ensures r.Some? ==> IsNumeral(tok) && r.value == NumeralValue(tok)
  {
    if IsNumeral(tok) && InI32(NumeralValue(tok)) then Some(NumeralValue(tok)) else None
  }

  /** A token that starts with neither a digit nor a sign is no literal. */
  lemma WordIsNotLiteral(tok: string)
    requires |tok| > 0 && !IsDigit(tok[0]) && !IsSign(tok[0])
    ensures ParseI32(tok) == None
  {
    assert Magnitude(tok) == tok;
  }

  /** Taking a longer run of digits never lowers the value. */
  lemma {:induction false} DigitsValuePrefix(s: string, k: nat)
    requires AllDigits(s) && k <= |s|
    ensures DigitsValue(s[..k]) <= DigitsValue(s)
    decreases |s|
  {
    if k < |s| {
      var t := s[..|s| - 1];
      assert t[..k] == s[..k];
      DigitsValuePrefix(t, k);
    } else {
      assert s[..k] == s;
    }
  }

  /** The sign-free part of a token starts after its sign, if any. */
  function MagnitudeStart(tok: string): (k: nat)
    requires |tok| > 0
    ensures k <= |tok| && Magnitude(tok) == tok[k..]
  {
    if IsSign(tok[0]) then 1 else 0
  }

  /** Appending one digit to a run of digits: ten times the value plus the
      digit. */
  lemma DigitsSnoc(u: string, c: char)
    requires AllDigits(u) && IsDigit(c)
    ensures AllDigits(u + [c])
    ensures DigitsValue(u + [c]) == DigitsValue(u) * 10 + DigitValue(c)
  {
    var t := u + [c];
    assert t[..|u|] == u;
    assert t[|u|] == c;
  }

  lemma ExtendDigits(tok: string, start: nat, i: nat)
    requires start <= i < |tok| && AllDigits(tok[start..i]) && IsDigit(tok[i])
    ensures AllDigits(tok[start..i + 1])
    ensures DigitsValue(tok[start..i + 1]) == DigitsValue(tok[start..i]) * 10 + DigitValue(tok[i])
  {
    assert tok[start..i + 1] == tok[start..i] + [tok[i]];
    DigitsSnoc(tok[start..i], tok[i]);
  }

  /** A non-digit after the sign makes the token no numeral. */
  lemma StrayRejected(tok: string, i: nat)
    requires |tok| > 0 && MagnitudeStart(tok) <= i < |tok| && !IsDigit(tok[i])
    ensures ParseI32(tok) == None
  {
    assert Magnitude(tok)[i - MagnitudeStart(tok)] == tok[i];
  }

  /** Once a prefix of the digits is out of range, so is the whole numeral:
      a longer run of digits only grows in magnitude. */
  lemma PrefixOutOfRange(tok: string, k: nat)
    requires |tok| > 0 && MagnitudeStart(tok) <= k <= |tok|
    requires AllDigits(tok[MagnitudeStart(tok)..k])
    requires !InI32(if tok[0] == '-' then 0 - DigitsValue(tok[MagnitudeStart(tok)..k])
                    else DigitsValue(tok[MagnitudeStart(tok)..k]))
    ensures ParseI32(tok) == None
  {
    var start := MagnitudeStart(tok);
    if IsNumeral(tok) {
      assert Magnitude(tok)[..k - start] == tok[start..k];
      DigitsValuePrefix(Magnitude(tok), k - start);
    }
  }

  /** The digit-by-digit algorithm of Rust's `from_str_radix` for base 10:
      reject an empty token and a lone sign, then accumulate digits left to
      right, adding them for a positive numeral and subtracting them for a
      negative one, and fail at the first non-digit or the first step that
      leaves the `i32` range. It agrees with `ParseI32` on every token. */
  method FromStrRadix(tok: string) returns (r: Option<int>)
    ensures r == ParseI32(tok)
  {
    if |tok| == 0 {
      return None;
    }
    if IsSign(tok[0]) && |tok| == 1 {
      return None;
    }
    var positive := tok[0] != '-';
    var start := MagnitudeStart(tok);
    var acc: int := 0;
    var i := start;
    while i < |tok|
      invariant start <= i <= |tok|
      invariant AllDigits(tok[start..i])
      invariant acc == if positive then DigitsValue(tok[start..i]) else 0 - DigitsValue(tok[start..i])
      invariant InI32(acc)
    {
      if !IsDigit(tok[i]) {
        StrayRejected(tok, i);
        return None;
      }
      var d: int := DigitValue(tok[i]);
      var next := if positive then acc * 10 + d else acc * 10 - d;
      ExtendDigits(tok, start, i);
      if !InI32(next) {
        PrefixOutOfRange(tok, i + 1);
        return None;
      }
      acc := next;
      i := i + 1;
    }
    assert tok[start..i] == Magnitude(tok);
    return Some(acc);
  }

  /** A run of digits without a leading zero is the one `NatToDigits`
      writes for its value. */
  lemma {:induction false} CanonicalDigits(s: string)
    requires 1 <= |s| && AllDigits(s)
    requires |s| > 1 ==> s[0] != '0'
    ensures s == NatToDigits(DigitsValue(s))
    decreases |s|
  {
    if |s| == 1 {
      assert s[..0] == [];
    } else {
      var t := s[..|s| - 1];
      DigitsValuePrefix(t, 1);
      assert t[..1] == [t[0]] && [t[0]][..0] == [];
      assert DigitsValue(t) >= 1;
      CanonicalDigits(t);
      assert s == t + [s[|s| - 1]];
    }
  }

  /** Printing a value and parsing the text back gives the value again, so
      the output of `.` is itself a literal that pushes the printed number;
      and the printed text is the only literal of canonical form with that
      value. */
  lemma PrintParseRoundTrip(v: int, tok: string)
    requires InI32(v)
    ensures ParseI32(IntToString(v)) == Some(v)
    ensures ParseI32(tok) == Some(v) && Canonical(tok) ==> tok == IntToString(v)
  {
    if ParseI32(tok) == Some(v) && Canonical(tok) {
      var m := Magnitude(tok);
      CanonicalDigits(m);
      if tok[0] == '-' {
        assert DigitsValue(m) == -v;
        assert tok == "-" + m;
      } else {
        assert DigitsValue(m) == v;
        assert m == tok;
      }
    }
  }

  /** A lone sign is not a literal, so `+` and `-` reach the word table. */
  lemma LoneSignIsNotLiteral()
    ensures ParseI32("+") == None && ParseI32("-") == None
  {
    assert Magnitude("+") == [];
    assert Magnitude("-") == [];
  }
}

=== FILE: optional.dfy ===
/** The optional value used wherever the interpreter works with Rust's `Option`:
    `Vec::pop`, `str::parse` and the per-token output of `execute_token`. */
module Optional {

  datatype Option<+T> = None | Some(value: T) {

    /** The wrapped value, or `default` when there is none. */
    function GetOr(default: T): T {
      match this
      case Some(v) => v
      case None => default
    }
  }
}

=== FILE: scenarios.dfy ===
/** Concrete runs of the interpreter and the editor that pin down the
    behaviours a reader is most likely to get wrong: the operand order of
    the arithmetic words, the non-standard `rot`, the eager pops on the error
    paths, and the absence of short-circuiting after an error. */
module Scenarios {
  import opened Optional
  import opened Numerals
  import opened Lexer
  import opened Arith
  import opened Interpreter
  import opened Interactive

  /** A line written with single spaces runs its tokens in order. */
  lemma ViaTokens(i: Interpreter, line: string, ts: seq<string>)
    requires forall k :: 0 <= k < |ts| ==> IsToken(ts[k])
    requires line == Unwords(ts)
    ensures ExecLine(i, line) == RunTokens(i.dataStack, ts)
  {
    SplitUnwords(ts);
  }

  /** A literal is a token: its characters are a sign and digits. */
  lemma LiteralIsToken(tok: string)
    requires ParseI32(tok).Some?
    ensures IsToken(tok)
  {
    var m := Magnitude(tok);
    var start := if IsSign(tok[0]) then 1 else 0;
    assert m == tok[start..];
    forall i | 0 <= i < |tok|
      ensures !IsWhitespace(tok[i])
    {
      if i >= start {
        assert tok[i] == m[i - start];
      }
    }
  }

  /** Tokens that are all literals, with the values `vs` in order. */
  lemma LiteralsAre(ts: seq<string>, vs: seq<int>)
    requires |ts| == |vs| && forall k :: 0 <= k < |ts| ==> ParseI32(ts[k]) == Some(vs[k])
    ensures AllLiterals(ts) && LiteralValues(ts) == vs
  {
    LiteralValuesAt(ts);
  }

  /** Literals pushed in order, then one word run on the stack they leave. */
  lemma LiteralsThenWord(s: seq<int>, ts: seq<string>, vs: seq<int>, w: string)
    requires AllLiterals(ts) && LiteralValues(ts) == vs
    ensures RunTokens(s, ts + [w]) == Then(LineDone(s + vs, ""), [w])
  {
    RunTokensAppend(s, ts, [w]);
    LiteralsPush(s, ts);
  }

  lemma LiteralsAndWordAreTokens(ts: seq<string>, vs: seq<int>, w: string)
    requires AllLiterals(ts) && LiteralValues(ts) == vs && IsToken(w)
    ensures forall k :: 0 <= k < |ts| + 1 ==> IsToken((ts + [w])[k])
  {
    forall k | 0 <= k < |ts| + 1
      ensures IsToken((ts + [w])[k])
    {
      if k < |ts| {
        LiteralIsToken(ts[k]);
        assert (ts + [w])[k] == ts[k];
      } else {
        assert (ts + [w])[k] == w;
      }
    }
  }

  /** The line `t1 t2 ... w` of literals and one word, separated by single
      spaces, runs those tokens. */
  lemma LineIsTokens(s: seq<int>, ts: seq<string>, vs: seq<int>, w: string)
    requires AllLiterals(ts) && LiteralValues(ts) == vs && IsToken(w)
    ensures ExecLine(Interpreter(s), Unwords(ts + [w])) == RunTokens(s, ts + [w])
  {
    LiteralsAndWordAreTokens(ts, vs, w);
    ViaTokens(Interpreter(s), Unwords(ts + [w]), ts + [w]);
  }

  /** One word run on a stack, seen as a line. */
  lemma WordLine(s: seq<int>, w: string, s1: seq<int>, out: Option<string>)
    requires ExecToken(s, w) == TokenDone(s1, out)
    ensures Then(LineDone(s, ""), [w]) == LineDone(s1, OutText(out))
  {
    assert [w][1..] == [];
    assert RunTokens(s1, []) == LineDone(s1, "");
    assert RunTokens(s, [w]) == LineDone(s1, OutText(out) + "");
    assert OutText(out) + "" == OutText(out);
    assert "" + OutText(out) == OutText(out);
  }

  /** One word that panics, seen as a line. */
  lemma PanicLine(s: seq<int>, w: string, f: Fault)
    requires ExecToken(s, w) == TokenPanic(f)
    ensures Then(LineDone(s, ""), [w]) == LinePanic(f)
  {
    assert RunTokens(s, [w]) == LinePanic(f);
  }

  /** Literals, then a word that completes on the stack they leave. */
  lemma WordAfterLiterals(s: seq<int>, ts: seq<string>, vs: seq<int>, w: string, s1: seq<int>, out: Option<string>)
    requires AllLiterals(ts) && LiteralValues(ts) == vs && ExecToken(s + vs, w) == TokenDone(s1, out)
    ensures RunTokens(s, ts + [w]) == LineDone(s1, OutText(out))
  {
    LiteralsThenWord(s, ts, vs, w);
    WordLine(s + vs, w, s1, out);
  }

  /** Literals, then a word that panics on the stack they leave. */
  lemma PanicAfterLiterals(s: seq<int>, ts: seq<string>, vs: seq<int>, w: string, f: Fault)
    requires AllLiterals(ts) && LiteralValues(ts) == vs && ExecToken(s + vs, w) == TokenPanic(f)
    ensures RunTokens(s, ts + [w]) == LinePanic(f)
  {
    LiteralsThenWord(s, ts, vs, w);
    PanicLine(s + vs, w, f);
  }

  /** An arithmetic word on a stack whose top two elements are `b` then `a`
      (a on top) pushes `op(a, b)` in their place, or panics. */
  lemma ArithOnTop(s: seq<int>, b: int, a: int, tok: string, op: BinOp)
    requires ParseI32(tok).None? && ArithWord(tok) == Some(op)
    ensures ExecToken(s + [b, a], tok) ==
            match Apply(op, a, b)
            case Value(v) => TokenDone(s + [v], None)
            case Panic(f) => TokenPanic(f)
  {
    var t := s + [b, a];
    assert !IsStackWord(tok);
    assert ExecToken(t, tok) == BinaryOp(t, op);
    assert t[..|t| - 2] == s && t[|t| - 1] == a && t[|t| - 2] == b;
    var r := BinaryOp(t, op);
    if r.TokenDone? {
      assert r.stack == r.stack[..|s|] + [r.stack[|s|]];
    }
  }

  lemma RotWord(s: seq<int>, x: int, y: int, z: int)
    ensures ExecToken(s + [x, y, z], "rot") == TokenDone(s + [y, z, x], None)
  {
    var t := s + [x, y, z];
    assert t[..|t| - 3] == s && t[|t| - 3] == x && t[|t| - 2] == y && t[|t| - 1] == z;
    WordIsNotLiteral("rot");
  }

  /** `x y z rot` leaves `y z x`: the element third from the top comes to
      the top, so `1 2 3 rot` leaves `2 3 1`. */
  lemma RotOrder(s: seq<int>, tx: string, ty: string, tz: string, x: int, y: int, z: int)
    requires ParseI32(tx) == Some(x) && ParseI32(ty) == Some(y) && ParseI32(tz) == Some(z)
    ensures ExecLine(Interpreter(s), Unwords([tx, ty, tz, "rot"])) == LineDone(s + [y, z, x], "")
  {
    var ts, vs := [tx, ty, tz], [x, y, z];
    assert [tx, ty, tz, "rot"] == ts + ["rot"];
    LiteralsAre(ts, vs);
    LineIsTokens(s, ts, vs, "rot");
    RotWord(s, x, y, z);
    WordAfterLiterals(s, ts, vs, "rot", s + [y, z, x], None);
  }

  /** `x y op` applies the operation to the later value and the earlier one,
      in that order, and either pushes the result or panics. */
  lemma ArithLine(s: seq<int>, tx: string, ty: string, x: int, y: int, tok: string, op: BinOp)
    requires ParseI32(tx) == Some(x) && ParseI32(ty) == Some(y)
    requires IsToken(tok) && ParseI32(tok).None? && ArithWord(tok) == Some(op)
    ensures ExecLine(Interpreter(s), Unwords([tx, ty, tok])) == Pushed(s, Apply(op, y, x))
  {
    var ts, vs := [tx, ty], [x, y];
    assert [tx, ty, tok] == ts + [tok];
    LiteralsAre(ts, vs);
    LineIsTokens(s, ts, vs, tok);
    ArithOnTop(s, x, y, tok, op);
    match Apply(op, y, x)
    case Value(v) => WordAfterLiterals(s, ts, vs, tok, s + [v], None);
    case Panic(f) => PanicAfterLiterals(s, ts, vs, tok, f);
  }

  /** The line result of a word that pushes a checked value or panics. */
  function Pushed(s: seq<int>, c: Checked): LineResult {
    match c
    case Value(v) => LineDone(s + [v], "")
    case Panic(f) => LinePanic(f)
  }

  lemma SubtractChecks(a: int, b: int)
    ensures Apply(Subtract, a, b) == Check(a - b)
  {
  }

  lemma MinusWord()
    ensures IsToken("-") && ParseI32("-").None? && ArithWord("-") == Some(Subtract)
  {
    LoneSignIsNotLiteral();
  }

  /** `x y -` subtracts the earlier value from the later one: it pushes
      `y - x` (so `5 3 -` leaves -2), and panics when that leaves `i32`. */
  lemma SubtractOrder(s: seq<int>, tx: string, ty: string, x: int, y: int)
    requires ParseI32(tx) == Some(x) && ParseI32(ty) == Some(y)
    ensures ExecLine(Interpreter(s), Unwords([tx, ty, "-"])) == Pushed(s, Check(y - x))
  {
    MinusWord();
    SubtractChecks(y, x);
    ArithLine(s, tx, ty, x, y, "-", Subtract);
  }

  lemma DivideWord()
    ensures IsToken("/") && ParseI32("/").None? && ArithWord("/") == Some(Divide)
  {
    WordIsNotLiteral("/");
  }

  /** `x y /` divides the later value by the earlier one, rounding toward
      zero: `5 0 /` leaves 0, while `0 5 /` divides by zero and panics, and
      so does `-1 -2147483648 /`, which divides `i32::MIN` by -1. */
  lemma DivideOrder(s: seq<int>, tx: string, ty: string, x: int, y: int)
    requires ParseI32(tx) == Some(x) && ParseI32(ty) == Some(y)
    ensures x == 0 ==> ExecLine(Interpreter(s), Unwords([tx, ty, "/"])) == LinePanic(DivisionByZero)
    ensures y == MinI32 && x == -1 ==> ExecLine(Interpreter(s), Unwords([tx, ty, "/"])) == LinePanic(Overflow)
    ensures x != 0 && !(y == MinI32 && x == -1) ==>
              ExecLine(Interpreter(s), Unwords([tx, ty, "/"])) == LineDone(s + [TruncDiv(y, x)], "")
  {
    DivideWord();
    ArithLine(s, tx, ty, x, y, "/", Divide);
  }

  lemma PrintWord(s: seq<int>, x: int)
    ensures ExecToken(s + [x], ".") == TokenDone(s, Some(IntToString(x)))
  {
    var t := s + [x];
    assert t[..|t| - 1] == s && t[|t| - 1] == x;
    WordIsNotLiteral(".");
  }

  /** `x .` prints the canonical numeral of `x` (no `+`, no leading zeros)
      and leaves the stack as it was before `x`. */
  lemma PrintShows(s: seq<int>, tx: string, x: int)
    requires ParseI32(tx) == Some(x)
    ensures ExecLine(Interpreter(s), Unwords([tx, "."])) == LineDone(s, IntToString(x))
  {
    assert [tx, "."] == [tx] + ["."];
    LiteralsAre([tx], [x]);
    LineIsTokens(s, [tx], [x], ".");
    PrintWord(s, x);
    WordAfterLiterals(s, [tx], [x], ".", s, Some(IntToString(x)));
  }

  lemma SwapOne(x: int)
    ensures ExecToken([] + [x], "swap") == TokenDone([], Some(SwapError))
  {
    assert [] + [x] == [x];
    WordIsNotLiteral("swap");
  }

  /** `x swap` on an empty stack reports the error and loses `x`: both pops
      happen before the check. */
  lemma SwapLoses(tx: string, x: int)
    requires ParseI32(tx) == Some(x)
    ensures ExecLine(New(), Unwords([tx, "swap"])) == LineDone([], SwapError)
  {
    assert [tx, "swap"] == [tx] + ["swap"];
    LiteralsAre([tx], [x]);
    LineIsTokens([], [tx], [x], "swap");
    SwapOne(x);
    WordAfterLiterals([], [tx], [x], "swap", [], Some(SwapError));
  }

  lemma ErrorThenPrint(x: int, w: string)
    requires ParseI32(w).None? && !IsStackWord(w) && ArithWord(w).None?
    ensures RunTokens([x], [w, "."]) == LineDone([], UnrecognizedError(w) + IntToString(x))
  {
    var err := UnrecognizedError(w);
    var shown := IntToString(x);
    assert ExecToken([x], w) == TokenDone([x], Some(err));
    ErrorDoesNotStop([x], w, ["."], err, [x]);
    assert [w] + ["."] == [w, "."];
    PrintWord([], x);
    assert [] + [x] == [x];
    WordLine([x], ".", [], Some(shown));
    assert RunTokens([x], ["."]) == LineDone([], shown);
  }

  lemma NoShortCircuitTokens(tx: string, x: int, w: string)
    requires ParseI32(tx) == Some(x)
    requires ParseI32(w).None? && !IsStackWord(w) && ArithWord(w).None?
    ensures RunTokens([], [tx, w, "."]) == LineDone([], UnrecognizedError(w) + IntToString(x))
  {
    ErrorThenPrint(x, w);
    assert ExecToken([], tx) == TokenDone([x], None) by { assert [] + [x] == [x]; }
    assert [tx, w, "."][1..] == [w, "."];
    RunTokensFirst([], [tx, w, "."], [x], None);
  }

  /** After an unrecognized token the line goes on: `x w .` outputs the
      error for `w` and then the numeral of `x`, and empties the stack. */
  lemma NoShortCircuit(tx: string, x: int, w: string)
    requires ParseI32(tx) == Some(x) && IsToken(w)
    requires ParseI32(w).None? && !IsStackWord(w) && ArithWord(w).None?
    ensures ExecLine(New(), Unwords([tx, w, "."])) == LineDone([], UnrecognizedError(w) + IntToString(x))
  {
    LiteralIsToken(tx);
    NoShortCircuitTokens(tx, x, w);
    ViaTokens(New(), Unwords([tx, w, "."]), [tx, w, "."]);
  }

  lemma PlusOnceTokens()
    ensures RunTokens([1, 2], ["+"]) == LineDone([3], "")
  {
    LoneSignIsNotLiteral();
    assert ExecToken([1, 2], "+") == TokenDone([3], None);
    WordLine([1, 2], "+", [3], None);
  }

  lemma PlusOnce(c: Interpreter)
    requires c.dataStack == [1, 2]
    ensures Evaluate(c, "+") == LineDone([3], "")
  {
    PlusOnceTokens();
    ViaTokens(c, "+", ["+"]);
  }

  lemma SplitPlusSpace()
    ensures SplitWhitespace("+ ") == ["+"]
  {
    SplitLeadingToken("+", " ");
    assert "+" + " " == "+ ";
    SplitBlank(" ");
  }

  lemma PlusSpace(c: Interpreter)
    requires c.dataStack == [1, 2]
    ensures Evaluate(c, "+ ") == LineDone([3], "")
  {
    PlusOnceTokens();
    SplitPlusSpace();
  }

  lemma PlusTwiceTokens()
    ensures RunTokens([1, 2], ["+", "+"]) == LineDone([], BinaryOpError(Add))
  {
    LoneSignIsNotLiteral();
    assert ExecToken([3], "+") == TokenDone([], Some(BinaryOpError(Add)));
    WordLine([3], "+", [], Some(BinaryOpError(Add)));
    assert ExecToken([1, 2], "+") == TokenDone([3], None);
    assert ["+", "+"][1..] == ["+"];
    RunTokensFirst([1, 2], ["+", "+"], [3], None);
  }

  lemma SplitPlusTwice()
    ensures SplitWhitespace("+ +") == ["+", "+"]
  {
    var ts := ["+", "+"];
    assert IsToken(ts[0]) && IsToken(ts[1]);
    assert Unwords(ts) == "+ +" by {
      assert ts[1..] == ["+"];
    }
    SplitUnwords(ts);
  }

  lemma PlusTwice(c: Interpreter)
    requires c.dataStack == [1, 2]
    ensures Evaluate(c, "+ +") == LineDone([], BinaryOpError(Add))
  {
    PlusTwiceTokens();
    SplitPlusTwice();
    assert ExecLine(c, "+ +") == RunTokens([1, 2], ["+", "+"]);
  }

  /** With `1 2` committed, typing `+` previews 3. */
  lemma TypePlusPreview(c: Interpreter)
    requires c.dataStack == [1, 2]
    ensures Step(Start(c), Char('+')) == Continue(Session(c, "+", 1), Some(Preview([3], "")))
  {
    PlusOnce(c);
    assert Insert(Start(c), '+') == Session(c, "+", 1);
  }

  /** Backspacing the `+` previews the committed `1 2` again. */
  lemma BackspacePreview(c: Interpreter)
    requires c.dataStack == [1, 2]
    ensures Step(Session(c, "+", 1), Backspace) == Continue(Start(c), Some(Preview([1, 2], "")))
  {
    BlankLine(c, "");
    assert DeleteBack(Session(c, "+", 1)) == Start(c);
  }

  /** A trailing space changes no token, so the preview stays 3. */
  lemma SpacePreview(c: Interpreter)
    requires c.dataStack == [1, 2]
    ensures Step(Session(c, "+", 1), Char(' ')) == Continue(Session(c, "+ ", 2), Some(Preview([3], "")))
  {
    PlusSpace(c);
    assert Insert(Session(c, "+", 1), ' ') == Session(c, "+ ", 2);
  }

  /** A second `+` previews the emptied stack with the `add` error: each
      preview is the whole buffer run on the same committed stack, whatever
      the earlier previews showed. */
  lemma SecondPlusPreview(c: Interpreter)
    requires c.dataStack == [1, 2]
    ensures Step(Session(c, "+ ", 2), Char('+')) ==
            Continue(Session(c, "+ +", 3), Some(Preview([], BinaryOpError(Add))))
  {
    PlusTwice(c);
    assert Insert(Session(c, "+ ", 2), '+') == Session(c, "+ +", 3);
  }

  lemma ZeroOneLiterals()
    ensures ParseI32("0") == Some(0) && ParseI32("1") == Some(1)
  {
    assert Magnitude("0") == "0" && Magnitude("1") == "1";
  }

  lemma SlashLine()
    ensures Unwords(["0", "1", "/"]) == "0 1 /"
  {
    assert Unwords(["/"]) == "/";
    assert Unwords(["1", "/"]) == "1 /";
  }

  /** `0 1 /` divides 1 by 0 and panics. */
  lemma PrefixLinePanics(s: seq<int>)
    ensures ExecLine(Interpreter(s), "0 1 /") == LinePanic(DivisionByZero)
  {
    ZeroOneLiterals();
    DivideOrder(s, "0", "1", 0, 1);
    SlashLine();
  }

  lemma SlashXWord()
    ensures IsToken("/x") && ParseI32("/x").None? && !IsStackWord("/x") && ArithWord("/x").None?
  {
    WordIsNotLiteral("/x");
  }

  lemma SlashXLine()
    ensures Unwords(["0", "1"] + ["/x"]) == "0 1 /x"
  {
    assert ["0", "1"] + ["/x"] == ["0", "1", "/x"];
    assert Unwords(["/x"]) == "/x";
    assert Unwords(["1", "/x"]) == "1 /x";
  }

  /** `0 1 /x` does not panic: `/x` is one unrecognized token. */
  lemma FullLineReports(s: seq<int>)
    ensures ExecLine(Interpreter(s), "0 1 /x") == LineDone(s + [0, 1], UnrecognizedError("/x"))
  {
    ZeroOneLiterals();
    SlashXWord();
    var ts, vs := ["0", "1"], [0, 1];
    LiteralsAre(ts, vs);
    LineIsTokens(s, ts, vs, "/x");
    WordAfterLiterals(s, ts, vs, "/x", s + vs, Some(UnrecognizedError("/x")));
    SlashXLine();
  }

  /** A token alone, or followed by one space, splits into just itself. */
  lemma SplitTokenSpace(w: string)
    requires IsToken(w)
    ensures SplitWhitespace(w) == [w] && SplitWhitespace(w + " ") == [w]
  {
    SplitLeadingToken(w, "");
    assert w + "" == w;
    SplitLeadingToken(w, " ");
    SplitBlank("");
    SplitBlank(" ");
  }

  /** A line whose tokens are all literals completes. */
  lemma LiteralLine(i: Interpreter, line: string, ts: seq<string>)
    requires SplitWhitespace(line) == ts && AllLiterals(ts)
    ensures Evaluate(i, line).LineDone?
  {
    LiteralsPush(i.dataStack, ts);
  }

  /** How the one-character token `w` and the line `w ` split. */
  lemma SplitDigit(w: string)
    requires w == "0" || w == "1"
    ensures SplitWhitespace(w) == [w] && SplitWhitespace(w + " ") == [w]
  {
    assert IsToken(w);
    SplitTokenSpace(w);
  }

  lemma SplitZeroOne()
    ensures SplitWhitespace("0 1") == ["0", "1"] && SplitWhitespace("0 1 ") == ["0", "1"]
  {
    SplitDigit("0");
    SplitDigit("1");
    assert "1" + " " == "1 ";
    SplitAtWhitespace("0", ' ', "1");
    assert "0" + [' '] + "1" == "0 1";
    SplitAtWhitespace("0", ' ', "1 ");
    assert "0" + [' '] + "1 " == "0 1 ";
    assert ["0"] + ["1"] == ["0", "1"];
  }

  lemma ZeroOneTokens()
    ensures SplitWhitespace("0") == ["0"] && SplitWhitespace("0 ") == ["0"]
    ensures SplitWhitespace("0 1") == ["0", "1"] && SplitWhitespace("0 1 ") == ["0", "1"]
    ensures AllLiterals(["0"]) && AllLiterals(["0", "1"])
  {
    ZeroOneLiterals();
    SplitDigit("0");
    assert "0" + " " == "0 ";
    SplitZeroOne();
  }

  /** The previews on the way to `0 1 /` all complete. */
  lemma ZeroOnePreviews(c: Interpreter)
    ensures Evaluate(c, "0").LineDone? && Evaluate(c, "0 ").LineDone?
    ensures Evaluate(c, "0 1").LineDone? && Evaluate(c, "0 1 ").LineDone?
  {
    ZeroOneTokens();
    LiteralLine(c, "0", ["0"]);
    LiteralLine(c, "0 ", ["0"]);
    LiteralLine(c, "0 1", ["0", "1"]);
    LiteralLine(c, "0 1 ", ["0", "1"]);
  }

  lemma ZeroOnePrefixes()
    ensures [] + "0 1 "[..1] == "0" && [] + "0 1 "[..2] == "0 "
    ensures [] + "0 1 "[..3] == "0 1" && [] + "0 1 "[..4] == "0 1 "
  {
  }

  lemma ZeroOnePreviewsComplete(c: Interpreter)
    ensures PreviewsComplete(c, [], "0 1 ")
  {
    ZeroOnePreviews(c);
    ZeroOnePrefixes();
    forall k | 0 < k <= |"0 1 "|
      ensures Evaluate(c, [] + "0 1 "[..k]).LineDone?
    {
      assert k == 1 || k == 2 || k == 3 || k == 4;
    }
  }

  /** Typing `0 1 ` into a fresh editor survives every preview. */
  lemma TypeZeroOne(c: Interpreter)
    ensures RunKeys(Start(c), Typed("0 1 ")) == Live(Session(c, "0 1 ", 4))
  {
    assert '\n' !in "0 1 ";
    RunKeysTyped(Start(c), "0 1 ");
    ZeroOnePreviewsComplete(c);
    TypeTextLive(Start(c), "0 1 ");
    TypeTextAtEnd(Start(c), "0 1 ");
    assert [] + "0 1 " == "0 1 ";
  }

  /** Then typing `/` previews `0 1 /`, which panics. */
  lemma SlashDies(c: Interpreter)
    ensures RunKeys(Session(c, "0 1 ", 4), Typed("/x")) == Died(DivisionByZero)
  {
    assert '\n' !in "/x";
    RunKeysTyped(Session(c, "0 1 ", 4), "/x");
    TypeFirst(Session(c, "0 1 ", 4), "/x");
    assert "0 1 " + ["/x"[0]] == "0 1 /";
    PrefixLinePanics(c.dataStack);
  }

  /** Typing `0 1 /x` ends the program at the preview of `0 1 /`, although
      the finished line would only report an unrecognized token: every
      prefix of a line is evaluated on the way. */
  lemma TypingPrefixCrashes(c: Interpreter)
    ensures RunKeys(Start(c), Typed("0 1 /x")) == Died(DivisionByZero)
    ensures Evaluate(c, "0 1 /x").LineDone?
  {
    FullLineReports(c.dataStack);
    assert "0 1 " + "/x" == "0 1 /x";
    TypedAppend("0 1 ", "/x");
    RunKeysAppend(Start(c), Typed("0 1 "), Typed("/x"));
    TypeZeroOne(c);
    SlashDies(c);
  }

}
